=== FILE: README.md ===
# Dungeon crawler core in Dafny

This project models the game logic of `game.py`, a single-file pygame
roguelike. The model covers:

- the generator, which places up to five rectangular rooms on a 25x18 tile map and joins each new room to the previous one with a 3-tile-wide L-shaped corridor;
- the wall colliders built from that map;
- the player: movement with per-axis wall rollback, clamping to the viewport below the 40-pixel HUD, coin pickup, rate-limited multishot volleys and the health upgrade;
- bullets: flight, and impact on the viewport edge, walls and enemies;
- enemies: activation delay, stuck detection and wander, pursuit, and contact damage;
- where enemies and coins spawn;
- the shop's three purchases;
- the level and run controller: `level + 2` enemies, a shop after even levels, and a reset on restart.

Randomness, the clock and pygame's floating-point vector arithmetic are
parameters of the model. Each placement attempt of the generator is a
`Candidate` (w, h, x, y and the corridor order). Each enemy spawn is a
`SpawnPick`. An enemy's wander and chase moves are integer pixel steps in
`EnemyDraws`. The rotated direction of a side bullet comes from an `aim`
function. Apart from these parameters and the departures listed under
the Left out and Findings sections below, the model computes as the source does:

- the tile and pixel arithmetic (`x * 32`, `y * 32 + 40`, centres at `+ 16`);
- the `int(...)` truncation of the diagonal walking speed;
- the order of updates within a frame;
- the strict rectangle overlap that pygame's `colliderect` uses.

Modules, one per file: `Geometry` (rects, tiles, constants), `Dungeon`
(grid, rooms, carving, generator), `Walls` (colliders from the grid),
`Entities` (records and constructors), `PlayerActions` (the `Player`
methods), `Combat` (bullet impact, enemy update, homing target), `Spawn`,
`Shop` and `Game` (level population, frame, run controller).

## Model

| member | source | states |
|---|---|---|
| Geometry.RectAround | game.py:193 | `get_rect(center=pos)` for an even-sided sprite: the box's centre is exactly `pos` |
| Geometry.TileCentreRoundTrip | game.py:442 | the pixel centre `(32x + 16, 32y + 56)` of a tile lies strictly inside that tile's wall rect and maps back to the same tile |
| Geometry.CentredBoxMeetsOnlyItsTile | game.py:638-640 | a box of even side at most 32, centred on a tile, overlaps that tile's rect and no other tile's rect |
| Geometry.OverlapsSymmetric | game.py:330 | the rectangle collision test used for contact and the door does not depend on argument order |
| Dungeon.Room.Center | game.py:346-348 | a room's centre tile lies inside the room |
| Dungeon.IntersectsSymmetric | game.py:350-351 | `Room.intersect` is symmetric |
| Dungeon.DisjointRoomsDistinct | game.py:444 | among accepted (pairwise disjoint) rooms two are equal exactly when they are the same list entry, so the identity comparison `room == rooms[-1]` agrees with comparing rooms by position |
| Dungeon.InteriorNonEmpty | game.py:440-441 | every generated room has an interior tile, so the spawn draws `randint(x1 + 1, x2 - 2)` and `randint(y1 + 1, y2 - 2)` always have a range |
| Dungeon.AllWalls | game.py:372 | the starting map is 25x18 and every tile is a wall |
| Dungeon.SetFloor | game.py:359 | exactly one cell becomes floor, and nothing else changes |
| Dungeon.CarveRect | game.py:383-385 | carving a room turns exactly the cells of its column and row range into floor; every other cell is unchanged |
| Dungeon.CarveColumn | game.py:384-385 | one column of a room carved: exactly those cells become floor |
| Dungeon.CarveRoom | game.py:383-385 | the cells of the room `[x1, x2) x [y1, y2)` are floor afterwards, no cell outside it changes, and walls only ever become floor |
| Dungeon.HCorridor | game.py:355-359 | a horizontal corridor from x1 to x2 makes rows y, y+1 and y+2 floor over the whole column span, skipping the rows beyond the map, and changes nothing else |
| Dungeon.HBand | game.py:356-359 | the column loop of the horizontal corridor: exactly the in-map cells of the 3-row band become floor |
| Dungeon.SetFloorIfRow | game.py:358-359 | the map-height guard: an out-of-range row leaves the map unchanged |
| Dungeon.VCorridor | game.py:362-366 | a vertical corridor from y1 to y2 makes columns x, x+1 and x+2 floor over the whole row span, skipping the columns beyond the map, and changes nothing else |
| Dungeon.VBand | game.py:363-366 | the row loop of the vertical corridor: exactly the in-map cells of the 3-column band become floor |
| Dungeon.SetFloorIfColumn | game.py:365-366 | the map-width guard: an out-of-range column leaves the map unchanged |
| Dungeon.Connect | game.py:387-396 | joining the previous room to the new one in either corridor order makes the two centres, the corner tile and the whole L-shaped path along the centre lines floor; exactly the cells of the two 3-wide corridor bands that lie in the map become floor, and every other cell is unchanged |
| Dungeon.LinkedPathIsFloor | game.py:391-396 | the corridor band facts imply that every tile on the centre-line path between the two centres is floor |
| Dungeon.PreservedByCarving | game.py:383-396 | later carving never undoes earlier floor: room floors, corridor bands and connections survive any wall-to-floor change |
| Dungeon.CarvesTransitive | game.py:372-398 | wall-to-floor-only change composes across the generator's steps |
| Dungeon.CandidateRoom | game.py:375-378 | a drawn candidate gives a room with sides 4 to 8 that lies strictly inside the map border |
| Dungeon.Accept | game.py:383-396 | an accepted room is carved to floor and, when there is a previous room, linked to it by the L-shaped corridor in the drawn order; a cell becomes floor exactly when it lies in the room or in that corridor's bands, and every other cell is unchanged |
| Dungeon.PlacedAfterAccept | game.py:380-397 | accepting a room keeps the generator's invariant: all rooms are valid, pairwise disjoint and floor, and each room is connected to its predecessor |
| Dungeon.Place | game.py:375-397 | one attempt: a candidate that intersects an accepted room is skipped and nothing changes; otherwise the room and its corridor order are appended, and exactly the room's cells and the corridor's cells become floor; a map that is floor exactly on the dug cells stays so |
| Dungeon.PlaceAll | game.py:374-397 | the attempt loop keeps the invariant, never removes or reorders a room, and adds at most one room per attempt; every attempt's room ends up either accepted or overlapping an accepted room, every room added is one of the attempts' rooms, and a map that is floor exactly on the dug cells stays so |
| Dungeon.PlaceAllAppend | game.py:374-397 | the loop over two runs of attempts is the loop over the first, continued over the second |
| Dungeon.GreedyAcceptance | game.py:380-397 | attempt k is appended exactly when its room meets none of the rooms kept from the attempts before it, so of two free attempts that overlap each other the earlier is kept |
| Dungeon.DugAppend | game.py:383-397 | appending a room with its corridor order adds exactly that room's cells and that corridor's cells to the dug ones |
| Dungeon.GenerateDungeon | game.py:370-398 | the result is the attempt loop over all five attempts from the all-wall map, so by Dungeon.GreedyAcceptance its rooms are the greedily kept attempts; it has one to five rooms and the first attempt always succeeds; the rooms are valid, pairwise disjoint and joined by corridors; a cell is floor exactly when it lies in a room or in the corridor that joined a room to the room before it |
| Dungeon.CollidingAttemptsSkipped | game.py:380-381 | attempts whose rooms intersect an accepted room leave the map and the room list unchanged |
| Dungeon.RepeatedDrawsGiveOneRoom | game.py:374-381 | five identical draws yield exactly one room, because every repeat intersects the first |
| Walls.TileOfTileRect | game.py:640 | a wall sprite's rect determines its tile |
| Walls.ColumnColliders | game.py:634-640 | one column of the collider loop yields exactly the rects of that column's wall tiles |
| Walls.CollidersFrom | game.py:633-640 | the collider loop from column x on yields exactly the rects of the wall tiles in those columns |
| Walls.WallColliders | game.py:632-640 | the wall group holds one 32x32 rect for each wall tile, at `(32x, 32y + 40)`, and nothing else |
| Walls.CollidersMatchGrid | game.py:632-640 | a box hits the wall group exactly when it overlaps the rect of some wall tile of the map |
| Walls.CentredOnFloorIsClear | game.py:643-645 | a box of even side at most 32 centred on a floor tile hits no wall |
| Entities.NewPlayer | game.py:80-102 | a new player has 6 + health_level half-hearts of health and of maximum health, the run's multishot and homing upgrades, no coins, no shot yet, and a 16x16 box centred on the spawn point |
| Entities.NewEnemyAsWritten | game.py:249-276 | `Enemy.__init__` with its image-dependent branches: the health and size depend on which images loaded |
| Entities.BossHealthDependsOnAssets | game.py:253-262 | with boss.png missing and enemy.png present, a boss gets 1 hit point instead of 10 |
| Entities.NewEnemy | game.py:249-276 | a boss has 10 hit points and a 32x32 box, any other enemy 1 and 16x16, centred on the spawn point; the enemy is not stuck and activates 500 ms later; this agrees with the source's constructor exactly when that constructor does not take the boss-with-enemy-image branch |
| Entities.NewCoin | game.py:236-244 | a coin is a 16x16 box centred on its position |
| PlayerActions.StepAxis | game.py:136-143 | one axis of `move`: the step is kept when the moved box hits no wall and is undone otherwise |
| PlayerActions.Move | game.py:135-143 | the horizontal step is judged first and the vertical one from where it left the box; each blocked step is undone on its own axis; a player clear of walls stays clear |
| PlayerActions.SlideAlongWall | game.py:135-143 | a blocked horizontal step does not stop a free vertical one |
| PlayerActions.Clamp | game.py:129-133 | the clamp puts a box that fits in the window inside the viewport below the HUD, and leaves a box already inside untouched |
| PlayerActions.ClampIdempotent | game.py:129-133 | clamping twice is clamping once |
| PlayerActions.Collect | game.py:124-126 | pickup keeps exactly the coins the box does not overlap, each with its multiplicity, so it removes exactly the overlapped ones; the count is the number removed, and with no overlap nothing changes |
| PlayerActions.CollectCountsOverlapped | game.py:124-126 | a coin the box overlaps is gone afterwards and the pickup count is positive |
| PlayerActions.KeyStep | game.py:105-119 | D beats A and S beats W; a straight step is 4 pixels; a diagonal step is `int(±4 * 0.7071) = ±2` per axis; a step is never longer than 4 |
| PlayerActions.UpdatePlayer | game.py:120-133 | the box ends where the wall-checked move leaves it, clamped into the viewport; the coins kept are exactly those the moved box, before clamping, does not overlap; the purse gains one per coin removed, and nothing else about the player changes |
| PlayerActions.FanAngles | game.py:156-175 | a volley's angles in creation order are 0, then +10i and -10i for i = 1..multishot_level |
| PlayerActions.FanAnglesAreSymmetric | game.py:156-175 | a volley covers every multiple of 10 degrees from -10n to 10n, each exactly once |
| PlayerActions.Shoot | game.py:145-175 | a zero direction or a shot within 300 ms of the last does nothing; otherwise the time is recorded and 1 + 2 * multishot_level bullets leave the player's centre with the player's homing flag, the first moving straight at 10 pixels per frame |
| PlayerActions.ShotsRateLimited | game.py:150-153 | two volleys that both fire are at least 300 ms apart |
| PlayerActions.AddHealth | game.py:177-181 | the health upgrade raises the bonus and the maximum by one, and raises health by one without exceeding the new maximum |
| Combat.RemoveAt | game.py:230 | removing a sprite from a group keeps the others in order |
| Combat.FirstHit | game.py:224 | `spritecollideany` over enemies: the first enemy overlapping the bullet, or none |
| Combat.ApplyHit | game.py:226-231 | a hit removes one hit point; at zero the enemy is removed, a coin drops at its centre and the player's purse gains one; otherwise only that enemy changes; no enemy moves |
| Combat.StepBullet | game.py:212-232 | a bullet advances by its step, then is destroyed off-screen, then on a wall; a bullet in view and clear of the walls hits an enemy exactly when it overlaps one, and the hit goes to the first overlapping enemy in group order, which takes it; otherwise it flies on and nothing else changes |
| Combat.HitAccounting | game.py:224-232 | a kill removes one enemy, adds one coin on the floor and one in the purse; a non-fatal hit changes none of the three |
| Combat.HitTimes | game.py:226-227 | n non-fatal hits on one enemy keep it in the group |
| Combat.DiesOnLastHit | game.py:226-230 | after n hits an enemy has n fewer hit points, and the hit after health - 1 hits removes it |
| Combat.HitTimesKeepsOthers | game.py:226-227 | repeated hits on one enemy leave every other enemy unchanged |
| Combat.BossDiesOnTenthHit | game.py:256 | a fresh boss survives nine hits and dies on the tenth |
| Combat.ArgMin | game.py:203-205 | `min` over the distance keys returns the position of a smallest key, the first one among equal keys |
| Combat.Nearest | game.py:202-205 | the homing target is an enemy at minimal squared centre distance, the first such one in group order |
| Combat.EnemyAI | game.py:283-327 | an unmoved enemy's stuck counter rises by one and passing 5 sends it into wander, a moved one resets it to 0; pursuit takes the chase step when clear, and when blocked stays put with the counter at 30; wander takes a fresh random step and keeps it as its direction when clear, and when blocked stays put with a new random direction; the box size never changes and an enemy clear of walls stays clear |
| Combat.BounceStepIsRedrawn | game.py:285-306 | after a blocked wander step the enemy is still stuck on its next update, so the bounce direction is replaced by a fresh draw, which it takes when that is clear |
| Combat.BlockedPursuitTurnsToWander | game.py:322-327 | a blocked pursuit step leaves the enemy wandering on the next update, with counter 31 |
| Combat.UpdateEnemy | game.py:278-335 | before activation nothing happens; afterwards the AI step, then on contact a boss costs 2 half-hearts and stays, and any other enemy costs 1, is removed and drops a coin; the player's purse is never touched |
| Combat.BossContactRepeats | game.py:330-332 | a boss in contact stays in the group and costs 2 half-hearts on every update |
| Spawn.SpawnEnemies | game.py:437-447 | num enemies, each centred on an interior tile of its drawn room; the boss is the last enemy of the batch, and only if it drew the last room; all activate 500 ms after spawn |
| Spawn.TileCentresRoundTrip | game.py:442 | a spawn position's pixel centre names its tile again |
| Spawn.AtMostOneBoss | game.py:443-447 | at most one boss per level, none unless the final draw chose the last room, and always one when there is only one room |
| Spawn.SpawnsOnFloor | game.py:437-442 | every spawn tile is inside the map and is floor |
| Spawn.CoinsFrom | game.py:663-669 | the coin loop from room i on places coins only in middle rooms; with non-overlapping rooms, each middle room j >= i holds exactly its drawn number of coins, and every other room none |
| Spawn.CountStep | game.py:663-669 | one room's coins followed by the later rooms' coins give each room its own share: the coins of room i all lie in room i and in no other room |
| Spawn.CoinsAt | game.py:665-669 | room i gets exactly as many coins as tiles drawn for it, one to three, the k-th a 16x16 box centred on the k-th drawn interior tile of room i, and so lying in room i |
| Spawn.SpawnCoins | game.py:663-669 | coins appear only in rooms other than the first and the last, so none at all with one or two rooms; when no two rooms overlap, as in every generated map, each middle room holds exactly its drawn one to three coins, and the first and last rooms none |
| Spawn.CoinsFromLastIsEmpty | game.py:663-664 | the last room contributes no coins: the coin count from room i is at most three per middle room left |
| Shop.Press | game.py:459-477 | an unaffordable purchase, or homing already owned, changes nothing; an accepted one costs exactly its price, never takes the purse below zero, and raises exactly the upgrade bought, in both the run's upgrades and the player |
| Shop.MultishotSpentClosedForm | game.py:461 | multishot levels 1..L cost 5 + 10 + ... + 5L = 5L(L+1)/2 in total |
| Shop.PressConservesValue | game.py:459-477 | coins plus the price of the upgrades owned is the same before and after any key press |
| Shop.HomingBoughtOnce | game.py:468-471 | homing is bought at most once: a second press changes neither upgrades nor coins |
| Shop.PressAll | game.py:455-481 | one frame's key events: value is conserved, upgrades only grow, and the coins never go negative |
| Shop.RunShop | game.py:451-481 | a shop visit conserves value, only raises upgrades, keeps the purse non-negative, and closes exactly when some frame contains Enter |
| Shop.KeysAfterEnterStillCount | game.py:454-481 | a purchase key later in the same frame as Enter still buys, because the whole frame's events are handled before the loop stops |
| Game.StartPlayer | game.py:643-645 | the player starts on the first room's centre tile, clear of every wall, with no coins and full health of 6 + health_level |
| Game.PopulateLevel | game.py:632-669 | a populated level has the map's wall colliders, the start player, the door on the last room's centre tile and no bullets; its enemies are exactly those `Spawn.SpawnEnemies` places for `level + 2` draws and its coins exactly those `Spawn.SpawnCoins` places; every enemy is not stuck and has health |
| Game.EnemiesSpawnClear | game.py:437-447 | every spawned enemy, boss or not, starts clear of the walls |
| Game.ShootAll | game.py:673-688 | the frame's arrow-key shots fire exactly one volley of 1 + 2 x multishot bullets, the one of the first shooting direction, when some event asks to shoot and the 300 ms cooldown has passed, and then restart the cooldown; otherwise nothing changes; every bullet starts at the player's centre with the player's homing flag |
| Game.UpdateEnemies | game.py:690 | the enemies' updates cost the player at most 2 half-hearts each and keep every enemy alive and consistent; enemies before the start index are untouched; each enemy spent on contact drops one coin and cost at least one half-heart; when no active enemy reaches the player, each enemy takes its own AI step and nothing else changes |
| Game.NoContactStep | game.py:278-335 | without contact an enemy's update only moves that enemy, and the later enemies still do not reach the player |
| Game.UpdateBullets | game.py:690 | the bullets' updates keep every remaining enemy alive; the purse grows by exactly the number of enemies killed, and the floor gains one coin per kill; every bullet still flying is an input bullet moved by its step, and every bullet with nothing in its way is among them |
| Game.Frame | game.py:672-701 | one frame keeps the level invariant and leaves walls and door in place; the player's box is the key step's wall-checked move, clamped into the viewport; the cooldown restarts exactly when a volley leaves; the purse gains the coins picked up plus at most one per enemy gone, the floor loses those picked up and gains one per enemy gone; every bullet still flying is an old or new one moved by its step; the frame costs at most 2 half-hearts per enemy and reports the door reached exactly when the player's box overlaps it |
| Game.StatusAfterFrame | game.py:672-704 | the level ends in death exactly when health is at most 0, which takes precedence over reaching the door; it is cleared exactly when the player is alive and at the door |
| Game.LastHalfHeartIsDeath | game.py:330-335 | an ordinary enemy touching a player with one half-heart left brings health to 0, and the level ends in death |
| Game.AfterLevel | game.py:703-715 | after death, restart gives level 1 with no upgrades; otherwise the run ends; a cleared odd level goes to the next level with the upgrades unchanged; a cleared even level opens the shop, which only raises the upgrades, spends at most the player's coins, and lets the run go on exactly when some frame contains Enter |
| Game.CoinsDoNotCarryOver | game.py:642-645 | whatever the purse held when a level ended, the next level's player starts with no coins, with 6 + health_level health, and faces `level + 2` enemies |

## Left out

- Rendering: images, fonts, the minimap (game.py:425-433), the hearts display (game.py:510-543), the game-over screen (game.py:545-596) and the frame clock. They draw state and do not change it. The game-over screen's choice is the `restart` flag of `Game.LevelEnd`.
- `draw_floor_and_walls` (game.py:401-421) is never called. Its wall loop is the same as the one `main` uses, which `Walls.WallColliders` models.
- Floating-point vector arithmetic is not modelled. This covers `Vector2.rotate` for the side bullets, the homing bullet's `normalize() * 10`, the enemy's division by distance, and the normalised random wander direction. The resulting integer pixel steps are parameters: `aim`, `Bullet.step` and `EnemyDraws`.
- Combat.StepBullet: a homing bullet's per-frame re-aim at its target is not modelled. The bullet moves by a fixed step. Choosing the target is modelled by `Combat.Nearest`. Keeping a target that is still alive is not.
- The door's size comes from door.png when that image loads. The model uses the 32x32 fallback.
- A window-close event mid-level on an even level still passes through the shop before the program ends. `Game.AfterLevel` ends the run at once, because nothing that outlives the run depends on it.
- Dungeon.HCorridor: requires its end columns to lie in the map. Dungeon.VCorridor: requires its end rows to lie in the map. Only room centres are ever passed, so both hold. The source would wrap a negative index, which never happens.
- Spawn.SpawnEnemies: builds its enemies with the corrected constructor `Entities.NewEnemy` of the Findings row, so a boss always has 10 hit points. With boss.png missing and enemy.png loaded, game.py:253-262 gives the boss 1 hit point. `Game.PopulateLevel` inherits this through `Spawn.SpawnEnemies`.
- `Enemy.update` (game.py:285) tests `length() < 1`. On integer centres this is equality, which is what `Combat.EnemyAI` tests.

## Findings

| source | as written | input that shows it | evidently intended | confidence | as-written member | corrected member |
|---|---|---|---|---|---|---|
| game.py:253-269 | `if is_boss and boss_img ... elif enemy_img ...`: with boss.png missing and enemy.png present, a boss takes the ordinary-enemy branch, with 1 hit point and a 16x16 sprite | `Enemy(pos, is_boss=True)` with `boss_img = None` and `enemy_img` loaded gives `health == 1` | a boss always has 10 hit points and a 32x32 box, as the fallback branch at lines 264-269 gives it when no image loads | not executed | Entities.NewEnemyAsWritten (shown by Entities.BossHealthDependsOnAssets) | Entities.NewEnemy |

=== FILE: combat.dfy ===
/** Bullets against walls and enemies, and the enemies' own update: the
    activation delay, the stuck-timer state machine and contact damage.
    `World` replaces the source's global sprite groups and `player`. */
module Combat {
  import opened Geometry
  import opened Entities

  datatype World = World(player: Player, enemies: seq<Enemy>, coins: seq<Coin>, walls: seq<Rect>)

  /** Remove entry i, keeping the order of the rest (`sprite.kill()`). */
  function RemoveAt<T>(s: seq<T>, i: nat): (s': seq<T>)
    requires i < |s|
    ensures |s'| == |s| - 1
    ensures forall k :: 0 <= k < i ==> s'[k] == s[k]
    ensures forall k :: i <= k < |s'| ==> s'[k] == s[k + 1]
  {
    s[..i] + s[i + 1..]
  }

  // ---------------------------------------------------------------------------
  // Bullets

  /** The bullet has left the playable viewport entirely. */
  predicate OutOfView(r: Rect) {
    r.Right() < 0 || r.x > SCREEN_WIDTH || r.Bottom() < HUD_HEIGHT || r.y > SCREEN_HEIGHT
  }

  /** The bullet moved by its integer step. */
  function Advanced(b: Bullet): Bullet {
    b.(rect := b.rect.Shift(b.step.x, b.step.y))
  }

  /** The box r overlaps none of the enemies. */
  predicate Clear(r: Rect, enemies: seq<Enemy>) {
    forall k :: 0 <= k < |enemies| ==> !Overlaps(r, enemies[k].rect)
  }

  /** Nothing stops the bullet this frame: moved by its step it is still in
      view, and meets neither a wall nor an enemy. */
  predicate Unobstructed(b: Bullet, w: World) {
    var r := Advanced(b).rect;
    !OutOfView(r) && !HitsAny(r, w.walls) && Clear(r, w.enemies)
  }

  /** The first enemy (in group order) whose box overlaps r, or |enemies|. */
  function FirstHit(r: Rect, enemies: seq<Enemy>): (i: nat)
    ensures i <= |enemies|
    ensures i < |enemies| ==> Overlaps(r, enemies[i].rect)
    ensures forall k :: 0 <= k < i ==> !Overlaps(r, enemies[k].rect)
  {
    if |enemies| == 0 then 0
    else if Overlaps(r, enemies[0].rect) then 0
    else 1 + FirstHit(r, enemies[1..])
  }

  /** What became of a bullet this frame. */
  datatype Impact = Flying | LeftView | HitWall | HitEnemy(index: nat, killed: bool)

  datatype BulletResult = BulletResult(bullet: Option<Bullet>, world: World, impact: Impact)

  /** One hit on enemy i: one hit point off; at zero or below the enemy is
      removed, a coin is dropped at its centre and the player is paid one coin. */
  function ApplyHit(w: World, i: nat): (w': World)
    requires i < |w.enemies|
    ensures w'.walls == w.walls
    ensures w.enemies[i].health <= 1 ==>
              && w'.enemies == RemoveAt(w.enemies, i)
              && w'.coins == w.coins + [NewCoin(w.enemies[i].rect.Center())]
              && w'.player == w.player.(coins := w.player.coins + 1)
    ensures w.enemies[i].health > 1 ==>
              && |w'.enemies| == |w.enemies|
              && w'.enemies[i] == w.enemies[i].(health := w.enemies[i].health - 1)
              && (forall k :: 0 <= k < |w.enemies| && k != i ==> w'.enemies[k] == w.enemies[k])
              && w'.coins == w.coins && w'.player == w.player
    ensures Alive(w.enemies) ==> Alive(w'.enemies)
    // a hit moves no enemy, so a box clear of the enemies stays clear
    ensures forall r :: Clear(r, w.enemies) ==> Clear(r, w'.enemies)
  {
    var e := w.enemies[i];
    var hurt := e.(health := e.health - 1);
    if hurt.health <= 0 then
      w.(enemies := RemoveAt(w.enemies, i),
         coins := w.coins + [NewCoin(e.rect.Center())],
         player := w.player.(coins := w.player.coins + 1))
    else
      w.(enemies := w.enemies[i := hurt])
  }

  /** The movement and impact half of `Bullet.update`: advance by the bullet's
      integer step, then test the viewport, the walls and the enemies in that
      order; any of the three ends the bullet. */
  function StepBullet(b: Bullet, w: World): (res: BulletResult)
    ensures res.impact.Flying? <==> res.bullet.Some?
    ensures res.bullet.Some? ==> res.bullet.value == Advanced(b)
    ensures res.impact == LeftView <==> OutOfView(b.rect.Shift(b.step.x, b.step.y))
    ensures res.impact == HitWall <==>
              !OutOfView(b.rect.Shift(b.step.x, b.step.y)) && HitsAny(b.rect.Shift(b.step.x, b.step.y), w.walls)
    ensures !res.impact.HitEnemy? ==> res.world == w
    ensures res.impact.HitEnemy? ==>
              && res.impact.index < |w.enemies|
              && Overlaps(b.rect.Shift(b.step.x, b.step.y), w.enemies[res.impact.index].rect)
              && res.impact.killed == (w.enemies[res.impact.index].health <= 1)
              && res.world == ApplyHit(w, res.impact.index)
    // a bullet in view and clear of the walls hits exactly when it overlaps
    // some enemy, and the hit goes to the first such enemy in group order
    ensures res.impact.HitEnemy? <==>
              && !OutOfView(Advanced(b).rect) && !HitsAny(Advanced(b).rect, w.walls)
              && !Clear(Advanced(b).rect, w.enemies)
    ensures res.impact.HitEnemy? ==>
              forall k :: 0 <= k < res.impact.index ==> !Overlaps(Advanced(b).rect, w.enemies[k].rect)
    ensures Alive(w.enemies) ==> Alive(res.world.enemies)
    ensures forall r :: Clear(r, w.enemies) ==> Clear(r, res.world.enemies)
    // a moved bullet in view, clear of the walls and of every enemy flies on
    ensures Unobstructed(b, w) ==> res.bullet == Some(Advanced(b)) && res.world == w
  {
    var r := b.rect.Shift(b.step.x, b.step.y);
    if OutOfView(r) then BulletResult(None, w, LeftView)
    else if HitsAny(r, w.walls) then BulletResult(None, w, HitWall)
    else
      var i := FirstHit(r, w.enemies);
      if i < |w.enemies| then
        BulletResult(None, ApplyHit(w, i), HitEnemy(i, w.enemies[i].health <= 1))
      else BulletResult(Some(b.(rect := r)), w, Flying)
  }

  /** Every enemy hit kills exactly one bullet, and the enemy count, the coins
      on the floor and the player's purse move together: a kill is one enemy
      fewer, one coin more on the floor and one coin more in the purse. */
  lemma HitAccounting(b: Bullet, w: World)
    requires StepBullet(b, w).impact.HitEnemy?
    ensures var w' := StepBullet(b, w).world;
            var killed := StepBullet(b, w).impact.killed;
            && |w'.enemies| == |w.enemies| - (if killed then 1 else 0)
            && |w'.coins| == |w.coins| + (if killed then 1 else 0)
            && w'.player.coins == w.player.coins + (if killed then 1 else 0)
            && w'.player.health == w.player.health
  {
  }

  /** `n` bullets in a row striking enemy i. */
  function HitTimes(w: World, i: nat, n: nat): World
    requires i < |w.enemies|
    requires n < w.enemies[i].health
    ensures i < |HitTimes(w, i, n).enemies|
    decreases n
  {
    if n == 0 then w
    else
      var w1 := ApplyHit(w, i);
      HitTimes(w1, i, n - 1)
  }

  /** An enemy with h hit points survives h - 1 hits, left with one point,
      and the h-th hit removes it: a boss (10) dies on exactly the tenth hit. */
  lemma {:induction false} DiesOnLastHit(w: World, i: nat, n: nat)
    requires i < |w.enemies| && n < w.enemies[i].health
    ensures HitTimes(w, i, n).enemies[i] == w.enemies[i].(health := w.enemies[i].health - n)
    ensures |HitTimes(w, i, n).enemies| == |w.enemies|
    ensures n == w.enemies[i].health - 1 ==>
              ApplyHit(HitTimes(w, i, n), i).enemies == RemoveAt(w.enemies, i)
    decreases n
  {
    if n > 0 {
      var w1 := ApplyHit(w, i);
      DiesOnLastHit(w1, i, n - 1);
      if n == w.enemies[i].health - 1 {
        var wn := HitTimes(w, i, n);
        assert forall k :: 0 <= k < |w.enemies| && k != i ==> w1.enemies[k] == w.enemies[k];
        HitTimesKeepsOthers(w1, i, n - 1);
        assert ApplyHit(wn, i).enemies == RemoveAt(wn.enemies, i);
        assert RemoveAt(wn.enemies, i) == RemoveAt(w.enemies, i);
      }
    }
  }

  lemma {:induction false} HitTimesKeepsOthers(w: World, i: nat, n: nat)
    requires i < |w.enemies| && n < w.enemies[i].health
    ensures |HitTimes(w, i, n).enemies| == |w.enemies|
    ensures forall k :: 0 <= k < |w.enemies| && k != i ==> HitTimes(w, i, n).enemies[k] == w.enemies[k]
    decreases n
  {
    if n > 0 {
      HitTimesKeepsOthers(ApplyHit(w, i), i, n - 1);
    }
  }

  lemma BossDiesOnTenthHit(w: World, i: nat)
    requires i < |w.enemies| && w.enemies[i].isBoss && w.enemies[i].health == BOSS_HEALTH
    ensures HitTimes(w, i, 9).enemies[i].health == 1
    ensures ApplyHit(HitTimes(w, i, 9), i).enemies == RemoveAt(w.enemies, i)
  {
    DiesOnLastHit(w, i, 9);
  }

  // ---------------------------------------------------------------------------
  // Homing target choice

  function DistSq(a: Point, b: Point): nat {
    (a.x - b.x) * (a.x - b.x) + (a.y - b.y) * (a.y - b.y)
  }

  /** The position of the first smallest key, as Python's `min` picks it. */
  method ArgMin(keys: seq<nat>) returns (best: nat)
    requires |keys| > 0
    ensures best < |keys|
    ensures forall k :: 0 <= k < |keys| ==> keys[best] <= keys[k]
    ensures forall k :: 0 <= k < best ==> keys[k] > keys[best]
  {
    best := 0;
    var k := 1;
    while k < |keys|
      invariant 1 <= k <= |keys| && best < k
      invariant forall j :: 0 <= j < k ==> keys[best] <= keys[j]
      invariant forall j :: 0 <= j < best ==> keys[j] > keys[best]
    {
      if keys[k] < keys[best] {
        best := k;
      }
      k := k + 1;
    }
  }

  /** `min(enemies, key=squared distance)`: the nearest enemy to c, the first
      one in group order among equally near ones. */
  method Nearest(c: Point, enemies: seq<Enemy>) returns (best: nat)
    requires |enemies| > 0
    ensures best < |enemies|
    ensures forall k :: 0 <= k < |enemies| ==>
              DistSq(c, enemies[best].rect.Center()) <= DistSq(c, enemies[k].rect.Center())
    ensures forall k :: 0 <= k < best ==>
              DistSq(c, enemies[k].rect.Center()) > DistSq(c, enemies[best].rect.Center())
  {
    var keys := seq(|enemies|, k requires 0 <= k < |enemies| => DistSq(c, enemies[k].rect.Center()));
    assert forall k :: 0 <= k < |enemies| ==> keys[k] == DistSq(c, enemies[k].rect.Center());
    best := ArgMin(keys);
  }

  // ---------------------------------------------------------------------------
  // Enemies

  /** The random and floating-point inputs of one enemy update, each already an
      integer pixel step at the enemy's speed: the wander step drawn when it
      gets stuck, the one drawn when a wander step hits a wall, and the
      pursuit step toward the player. */
  datatype EnemyDraws = EnemyDraws(stuckStep: Point, bounceStep: Point, chaseStep: Point)

  const STUCK_LIMIT: int := 5
  const BLOCKED_TIMER: int := 30

  /** A wander step is only ever held by an enemy whose timer is past the limit. */
  predicate StuckInvariant(e: Enemy) {
    e.stuckDir.Some? ==> e.stuckTimer > STUCK_LIMIT
  }

  /** What holds of every enemy still in the group: a consistent stuck state
      and health left (a hit to zero removes the enemy at once). */
  predicate Alive(es: seq<Enemy>) {
    forall k :: 0 <= k < |es| ==> StuckInvariant(es[k]) && es[k].health > 0
  }

  /** Whether this update chases the player rather than wandering: it moved
      since the last frame, or it has not been still for long enough and holds
      no wander step. */
  predicate Pursues(e: Enemy) {
    e.rect.Center() != e.lastPos || (e.stuckTimer + 1 <= STUCK_LIMIT && e.stuckDir == None)
  }

  /** The AI half of `Enemy.update` once active: stuck detection, then a wander
      or pursuit step that is undone if it meets a wall. */
  function EnemyAI(e: Enemy, walls: seq<Rect>, d: EnemyDraws): (e': Enemy)
    requires StuckInvariant(e)
    ensures StuckInvariant(e')
    ensures e'.isBoss == e.isBoss && e'.health == e.health && e'.activationTime == e.activationTime
    ensures e'.rect.w == e.rect.w && e'.rect.h == e.rect.h
    ensures e'.lastPos == e.rect.Center()
    ensures !HitsAny(e.rect, walls) ==> !HitsAny(e'.rect, walls)
    // moving since the last frame resets the timer and returns the enemy to pursuit
    ensures e.rect.Center() != e.lastPos ==>
              e'.stuckDir == None && (e'.stuckTimer == 0 || e'.stuckTimer == BLOCKED_TIMER)
    // standing still counts up, and past the limit the enemy wanders
    ensures e.rect.Center() == e.lastPos ==> e'.stuckTimer >= e.stuckTimer + 1
    ensures e.rect.Center() == e.lastPos && e.stuckTimer + 1 > STUCK_LIMIT ==> e'.stuckDir.Some?
    // in pursuit, a step into a wall is undone and sets the timer to 30
    ensures Pursues(e) && HitsAny(e.rect.Shift(d.chaseStep.x, d.chaseStep.y), walls) ==>
              e'.rect == e.rect && e'.stuckDir == None && e'.stuckTimer == BLOCKED_TIMER
    // a free pursuit step is taken; the timer counts on only if the enemy stood still
    ensures Pursues(e) && !HitsAny(e.rect.Shift(d.chaseStep.x, d.chaseStep.y), walls) ==>
              && e'.rect == e.rect.Shift(d.chaseStep.x, d.chaseStep.y) && e'.stuckDir == None
              && e'.stuckTimer == (if e.rect.Center() == e.lastPos then e.stuckTimer + 1 else 0)
    // a wandering enemy stood still past the limit: it draws a fresh direction
    // and the timer counts on
    ensures !Pursues(e) ==>
              && e.rect.Center() == e.lastPos && e.stuckTimer + 1 > STUCK_LIMIT
              && e'.stuckTimer == e.stuckTimer + 1
    // a free wander step is taken and kept as the direction
    ensures !Pursues(e) && !HitsAny(e.rect.Shift(d.stuckStep.x, d.stuckStep.y), walls) ==>
              e'.rect == e.rect.Shift(d.stuckStep.x, d.stuckStep.y) && e'.stuckDir == Some(d.stuckStep)
    // a wander step into a wall is undone and a new direction is drawn
    ensures !Pursues(e) && HitsAny(e.rect.Shift(d.stuckStep.x, d.stuckStep.y), walls) ==>
              e'.rect == e.rect && e'.stuckDir == Some(d.bounceStep)
  {
    var cur := e.rect.Center();
    var (timer, dir) :=
      if cur == e.lastPos then
        (e.stuckTimer + 1, if e.stuckTimer + 1 > STUCK_LIMIT then Some(d.stuckStep) else e.stuckDir)
      else (0, None);
    match dir
    case Some(step) =>
      var moved := e.rect.Shift(step.x, step.y);
      if HitsAny(moved, walls) then
        e.(stuckTimer := timer, stuckDir := Some(d.bounceStep), lastPos := cur)
      else
        e.(rect := moved, stuckTimer := timer, stuckDir := dir, lastPos := cur)
    case None =>
      var moved := e.rect.Shift(d.chaseStep.x, d.chaseStep.y);
      if HitsAny(moved, walls) then
        e.(stuckTimer := BLOCKED_TIMER, stuckDir := None, lastPos := cur)
      else
        e.(rect := moved, stuckTimer := timer, stuckDir := None, lastPos := cur)
  }

  /** An enemy whose pursuit step was blocked wanders on its next active
      update: it was put back where it stood, so it counts as stuck, and its
      timer is already past the limit. */
  lemma BlockedPursuitTurnsToWander(e: Enemy, walls: seq<Rect>, d1: EnemyDraws, d2: EnemyDraws)
    requires StuckInvariant(e) && Pursues(e)
    requires HitsAny(e.rect.Shift(d1.chaseStep.x, d1.chaseStep.y), walls)
    ensures !Pursues(EnemyAI(e, walls, d1))
    ensures EnemyAI(EnemyAI(e, walls, d1), walls, d2).stuckDir.Some?
    ensures EnemyAI(EnemyAI(e, walls, d1), walls, d2).stuckTimer == BLOCKED_TIMER + 1
  {
  }

  /** The direction drawn after a blocked wander step is never walked: the
      enemy was put back, so on its next update it stands still past the limit
      and draws yet another direction, which it walks if the way is free. */
  lemma BounceStepIsRedrawn(e: Enemy, walls: seq<Rect>, d1: EnemyDraws, d2: EnemyDraws)
    requires StuckInvariant(e) && !Pursues(e)
    requires HitsAny(e.rect.Shift(d1.stuckStep.x, d1.stuckStep.y), walls)
    requires !HitsAny(e.rect.Shift(d2.stuckStep.x, d2.stuckStep.y), walls)
    ensures EnemyAI(e, walls, d1).stuckDir == Some(d1.bounceStep)
    ensures EnemyAI(EnemyAI(e, walls, d1), walls, d2).rect == e.rect.Shift(d2.stuckStep.x, d2.stuckStep.y)
    ensures EnemyAI(EnemyAI(e, walls, d1), walls, d2).stuckDir == Some(d2.stuckStep)
  {
  }

  /** Contact damage: two half-hearts for a boss, one for any other enemy. */
  function ContactDamage(e: Enemy): int {
    if e.isBoss then 2 else 1
  }

  /** `Enemy.update` for enemy i at time `now`: nothing before its activation
      time; afterwards its AI step, then, if it overlaps the player, damage,
      and a non-boss enemy is spent (removed, a coin dropped, the player's
      purse untouched). */
  function UpdateEnemy(w: World, i: nat, now: int, d: EnemyDraws): (w': World)
    requires i < |w.enemies| && StuckInvariant(w.enemies[i])
    ensures w'.walls == w.walls && w'.player.coins == w.player.coins
    ensures now < w.enemies[i].activationTime ==> w' == w
    ensures now >= w.enemies[i].activationTime ==>
              var e' := EnemyAI(w.enemies[i], w.walls, d);
              if !Overlaps(e'.rect, w.player.rect) then
                w' == w.(enemies := w.enemies[i := e'])
              else if e'.isBoss then
                && w'.player.health == w.player.health - 2
                && w'.enemies == w.enemies[i := e']
                && w'.coins == w.coins
              else
                && w'.player.health == w.player.health - 1
                && w'.enemies == RemoveAt(w.enemies, i)
                && w'.coins == w.coins + [NewCoin(e'.rect.Center())]
    ensures w'.player == w.player.(health := w'.player.health)
    ensures w'.player.health >= w.player.health - 2
    ensures |w'.enemies| == |w.enemies| || |w'.enemies| == |w.enemies| - 1
    ensures Alive(w.enemies) ==> Alive(w'.enemies)
  {
    var e := w.enemies[i];
    if now < e.activationTime then w
    else
      var e' := EnemyAI(e, w.walls, d);
      if Overlaps(e'.rect, w.player.rect) then
        var p' := w.player.(health := w.player.health - ContactDamage(e'));
        if e'.isBoss then
          w.(player := p', enemies := w.enemies[i := e'])
        else
          w.(player := p', enemies := RemoveAt(w.enemies, i),
             coins := w.coins + [NewCoin(e'.rect.Center())])
      else
        w.(enemies := w.enemies[i := e'])
  }

  /** A boss stays on the player and keeps biting: each active update in
      contact costs the player 2 half-hearts, with no cooldown. */
  lemma BossContactRepeats(w: World, i: nat, now: int, d: EnemyDraws)
    requires i < |w.enemies| && StuckInvariant(w.enemies[i]) && w.enemies[i].isBoss
    requires now >= w.enemies[i].activationTime
    requires Overlaps(EnemyAI(w.enemies[i], w.walls, d).rect, w.player.rect)
    ensures |UpdateEnemy(w, i, now, d).enemies| == |w.enemies|
    ensures UpdateEnemy(w, i, now, d).enemies[i].isBoss
    ensures UpdateEnemy(w, i, now, d).player.health == w.player.health - 2
  {
  }
}

=== FILE: dungeon.dfy ===
/** The procedural dungeon generator: an all-wall tile grid into which up to
    five non-overlapping rooms are carved, each joined to the previously
    accepted room by a three-tile-wide L-shaped corridor.  The random draws of
    the generator are an explicit sequence of candidates. */
module Dungeon {
  import opened Geometry

  datatype Tile = Wall | Floor

  /** `dungeon_map[x][y]`: a column per x, a cell per y. */
  type Grid = seq<seq<Tile>>

  const ROOM_ATTEMPTS: int := 5
  const MIN_ROOM_SIDE: int := 4
  const MAX_ROOM_SIDE: int := 8

  predicate InMap(x: int, y: int) {
    0 <= x < MAP_WIDTH && 0 <= y < MAP_HEIGHT
  }

  predicate WellFormed(g: Grid) {
    |g| == MAP_WIDTH && forall x :: 0 <= x < |g| ==> |g[x]| == MAP_HEIGHT
  }

  /** g2 is g1 with zero or more wall cells turned into floor: carving never
      turns floor back into wall. */
  ghost predicate Carves(g1: Grid, g2: Grid)
    requires WellFormed(g1) && WellFormed(g2)
  {
    forall x, y :: InMap(x, y) ==> g2[x][y] == g1[x][y] || g2[x][y] == Floor
  }

  lemma CarvesTransitive(g1: Grid, g2: Grid, g3: Grid)
    requires WellFormed(g1) && WellFormed(g2) && WellFormed(g3)
    requires Carves(g1, g2) && Carves(g2, g3)
    ensures Carves(g1, g3)
  {
  }

  /** The starting map: every cell is wall. */
  function AllWalls(): (g: Grid)
    ensures WellFormed(g)
    ensures forall x, y :: InMap(x, y) ==> g[x][y] == Wall
  {
    seq(MAP_WIDTH, _ => seq(MAP_HEIGHT, _ => Wall))
  }

  /** The single write `dungeon_map[x][y] = 0`. */
  function SetFloor(g: Grid, x: int, y: int): (g': Grid)
    requires WellFormed(g) && InMap(x, y)
    ensures WellFormed(g')
    ensures g'[x][y] == Floor
    ensures forall i, j :: InMap(i, j) && (i != x || j != y) ==> g'[i][j] == g[i][j]
  {
    g[x := g[x][y := Floor]]
  }

  // ---------------------------------------------------------------------------
  // Rooms

  /** `Room(x, y, w, h)` stores the half-open tile range [x1, x2) x [y1, y2). */
  datatype Room = Room(x1: int, y1: int, x2: int, y2: int) {

    /** `Room.center`: the midpoint rounded down, which lies inside any
        non-empty room (the fact every corridor proof needs). */
    function Center(): (c: (int, int))
      ensures x1 < x2 ==> x1 <= c.0 < x2
      ensures y1 < y2 ==> y1 <= c.1 < y2
    {
      ((x1 + x2) / 2, (y1 + y2) / 2)
    }

    /** `Room.intersect`: strict overlap on both axes. */
    predicate Intersects(other: Room) {
      x1 < other.x2 && x2 > other.x1 && y1 < other.y2 && y2 > other.y1
    }

    predicate Contains(x: int, y: int) {
      x1 <= x < x2 && y1 <= y < y2
    }

    /** The interior the spawners sample from: [x1+1, x2-2] x [y1+1, y2-2]. */
    predicate InInterior(x: int, y: int) {
      x1 + 1 <= x <= x2 - 2 && y1 + 1 <= y <= y2 - 2
    }
  }

  function MakeRoom(x: int, y: int, w: int, h: int): Room {
    Room(x, y, x + w, y + h)
  }

  /** The shape every generated room has: sides 4..8 and a one-tile margin. */
  predicate ValidRoom(r: Room) {
    && MIN_ROOM_SIDE <= r.x2 - r.x1 <= MAX_ROOM_SIDE
    && MIN_ROOM_SIDE <= r.y2 - r.y1 <= MAX_ROOM_SIDE
    && 1 <= r.x1 && r.x2 <= MAP_WIDTH - 1
    && 1 <= r.y1 && r.y2 <= MAP_HEIGHT - 1
  }

  lemma IntersectsSymmetric(a: Room, b: Room)
    ensures a.Intersects(b) <==> b.Intersects(a)
  {
  }

  /** Two valid rooms that do not intersect are different rooms, so in a list of
      pairwise disjoint rooms a room is equal to `rooms[k]` exactly when it is
      the k-th entry: comparing by identity (as the source does) and comparing
      by value agree. */
  lemma DisjointRoomsDistinct(rooms: seq<Room>, i: int, j: int)
    requires forall k :: 0 <= k < |rooms| ==> ValidRoom(rooms[k])
    requires PairwiseDisjoint(rooms)
    requires 0 <= i < |rooms| && 0 <= j < |rooms|
    ensures rooms[i] == rooms[j] <==> i == j
  {
    if i < j {
      assert rooms[i].Intersects(rooms[i]) && !rooms[j].Intersects(rooms[i]);
    } else if j < i {
      assert rooms[j].Intersects(rooms[j]) && !rooms[i].Intersects(rooms[j]);
    }
  }

  /** The interior of a valid room is never empty, so the spawners' `randint`
      calls always have a value to return. */
  lemma InteriorNonEmpty(r: Room)
    requires ValidRoom(r)
    ensures r.InInterior(r.x1 + 1, r.y1 + 1)
    ensures forall x, y :: r.InInterior(x, y) ==> r.Contains(x, y) && InMap(x, y)
  {
  }

  predicate PairwiseDisjoint(rooms: seq<Room>) {
    forall i, j :: 0 <= i < j < |rooms| ==> !rooms[j].Intersects(rooms[i])
  }

  ghost predicate RoomFloor(g: Grid, r: Room)
    requires WellFormed(g)
  {
    forall x, y :: InMap(x, y) && r.Contains(x, y) ==> g[x][y] == Floor
  }

  // ---------------------------------------------------------------------------
  // Carving

  /** The room-carving loop nest, columns x..x2-1 and rows y1..y2-1. */
  function CarveRect(g: Grid, x: int, x2: int, y1: int, y2: int): (g': Grid)
    requires WellFormed(g) && 0 <= x && x2 <= MAP_WIDTH && 0 <= y1 && y2 <= MAP_HEIGHT
    ensures WellFormed(g')
    ensures forall i, j :: InMap(i, j) ==>
              g'[i][j] == (if x <= i < x2 && y1 <= j < y2 then Floor else g[i][j])
    decreases x2 - x
  {
    if x >= x2 then g else CarveRect(CarveColumn(g, x, y1, y2), x + 1, x2, y1, y2)
  }

  function CarveColumn(g: Grid, x: int, y: int, y2: int): (g': Grid)
    requires WellFormed(g) && 0 <= x < MAP_WIDTH && 0 <= y && y2 <= MAP_HEIGHT
    ensures WellFormed(g')
    ensures forall i, j :: InMap(i, j) ==>
              g'[i][j] == (if i == x && y <= j < y2 then Floor else g[i][j])
    decreases y2 - y
  {
    if y >= y2 then g else CarveColumn(SetFloor(g, x, y), x, y + 1, y2)
  }

  /** Carving a room turns exactly its tile range into floor. */
  function CarveRoom(g: Grid, r: Room): (g': Grid)
    requires WellFormed(g) && ValidRoom(r)
    ensures WellFormed(g') && Carves(g, g') && RoomFloor(g', r)
    ensures forall x, y :: InMap(x, y) && !r.Contains(x, y) ==> g'[x][y] == g[x][y]
  {
    CarveRect(g, r.x1, r.x2, r.y1, r.y2)
  }

  function Min(a: int, b: int): int { if a <= b then a else b }

  function Max(a: int, b: int): int { if a <= b then b else a }

  /** Cell (i, j) is in rows y, y+1, y+2 between columns x1 and x2 inclusive. */
  predicate InHBand(x1: int, x2: int, y: int, i: int, j: int) {
    Min(x1, x2) <= i <= Max(x1, x2) && y <= j < y + 3
  }

  /** Cell (i, j) is in columns x, x+1, x+2 between rows y1 and y2 inclusive. */
  predicate InVBand(y1: int, y2: int, x: int, i: int, j: int) {
    Min(y1, y2) <= j <= Max(y1, y2) && x <= i < x + 3
  }

  /** Cell (i, j) is in one of the two bands of the L-shaped corridor from
      centre a to centre b: along a's row then down b's column, or down a's
      column then along b's row. */
  predicate InCorridor(a: (int, int), b: (int, int), hFirst: bool, i: int, j: int) {
    if hFirst then InHBand(a.0, b.0, a.1, i, j) || InVBand(a.1, b.1, b.0, i, j)
    else InVBand(a.1, b.1, a.0, i, j) || InHBand(a.0, b.0, b.1, i, j)
  }

  /** The horizontal band is floor wherever it lies inside the map. */
  ghost predicate HBandFloor(g: Grid, x1: int, x2: int, y: int)
    requires WellFormed(g)
  {
    forall i, j :: InMap(i, j) && InHBand(x1, x2, y, i, j) ==> g[i][j] == Floor
  }

  /** The vertical band is floor wherever it lies inside the map. */
  ghost predicate VBandFloor(g: Grid, y1: int, y2: int, x: int)
    requires WellFormed(g)
  {
    forall i, j :: InMap(i, j) && InVBand(y1, y2, x, i, j) ==> g[i][j] == Floor
  }

  /** `create_h_corridor(x1, x2, y)`: only the row index is range-checked. */
  function HCorridor(g: Grid, x1: int, x2: int, y: int): (g': Grid)
    requires WellFormed(g) && 0 <= x1 < MAP_WIDTH && 0 <= x2 < MAP_WIDTH
    ensures WellFormed(g') && Carves(g, g') && HBandFloor(g', x1, x2, y)
    ensures forall i, j :: InMap(i, j) ==> g'[i][j] == (if InHBand(x1, x2, y, i, j) then Floor else g[i][j])
  {
    HBand(g, Min(x1, x2), Max(x1, x2), y)
  }

  function HBand(g: Grid, x: int, xEnd: int, y: int): (g': Grid)
    requires WellFormed(g) && 0 <= x && xEnd < MAP_WIDTH
    ensures WellFormed(g')
    ensures forall i, j :: InMap(i, j) ==>
              g'[i][j] == (if x <= i <= xEnd && y <= j < y + 3 then Floor else g[i][j])
    decreases xEnd - x
  {
    if x > xEnd then g
    else
      var g1 := SetFloorIfRow(g, x, y);
      var g2 := SetFloorIfRow(g1, x, y + 1);
      var g3 := SetFloorIfRow(g2, x, y + 2);
      HBand(g3, x + 1, xEnd, y)
  }

  /** The guarded write `if 0 <= y < MAP_HEIGHT: dungeon_map[x][y] = 0`. */
  function SetFloorIfRow(g: Grid, x: int, y: int): (g': Grid)
    requires WellFormed(g) && 0 <= x < MAP_WIDTH
    ensures WellFormed(g')
    ensures forall i, j :: InMap(i, j) ==> g'[i][j] == (if i == x && j == y then Floor else g[i][j])
  {
    if 0 <= y < MAP_HEIGHT then SetFloor(g, x, y) else g
  }

  /** `create_v_corridor(y1, y2, x)`: only the column index is range-checked. */
  function VCorridor(g: Grid, y1: int, y2: int, x: int): (g': Grid)
    requires WellFormed(g) && 0 <= y1 < MAP_HEIGHT && 0 <= y2 < MAP_HEIGHT
    ensures WellFormed(g') && Carves(g, g') && VBandFloor(g', y1, y2, x)
    ensures forall i, j :: InMap(i, j) ==> g'[i][j] == (if InVBand(y1, y2, x, i, j) then Floor else g[i][j])
  {
    VBand(g, Min(y1, y2), Max(y1, y2), x)
  }

  function VBand(g: Grid, y: int, yEnd: int, x: int): (g': Grid)
    requires WellFormed(g) && 0 <= y && yEnd < MAP_HEIGHT
    ensures WellFormed(g')
    ensures forall i, j :: InMap(i, j) ==>
              g'[i][j] == (if y <= j <= yEnd && x <= i < x + 3 then Floor else g[i][j])
    decreases yEnd - y
  {
    if y > yEnd then g
    else
      var g1 := SetFloorIfColumn(g, x, y);
      var g2 := SetFloorIfColumn(g1, x + 1, y);
      var g3 := SetFloorIfColumn(g2, x + 2, y);
      VBand(g3, y + 1, yEnd, x)
  }

  /** The guarded write `if 0 <= x < MAP_WIDTH: dungeon_map[x][y] = 0`. */
  function SetFloorIfColumn(g: Grid, x: int, y: int): (g': Grid)
    requires WellFormed(g) && 0 <= y < MAP_HEIGHT
    ensures WellFormed(g')
    ensures forall i, j :: InMap(i, j) ==> g'[i][j] == (if i == x && j == y then Floor else g[i][j])
  {
    if 0 <= x < MAP_WIDTH then SetFloor(g, x, y) else g
  }

  /** The corridor from centre a to centre b, horizontal leg first (along a's
      row, then down b's column) or vertical leg first. */
  ghost predicate Linked(g: Grid, a: (int, int), b: (int, int), hFirst: bool)
    requires WellFormed(g)
  {
    if hFirst then HBandFloor(g, a.0, b.0, a.1) && VBandFloor(g, a.1, b.1, b.0)
    else VBandFloor(g, a.1, b.1, a.0) && HBandFloor(g, a.0, b.0, b.1)
  }

  /** Consecutive rooms are joined by one of the two L-shaped corridors. */
  ghost predicate Connected(g: Grid, a: Room, b: Room)
    requires WellFormed(g)
  {
    Linked(g, a.Center(), b.Center(), true) || Linked(g, a.Center(), b.Center(), false)
  }

  /** The L-path of a corridor runs over floor from one centre, through the
      corner, to the other centre. */
  lemma LinkedPathIsFloor(g: Grid, a: (int, int), b: (int, int), hFirst: bool)
    requires WellFormed(g) && InMap(a.0, a.1) && InMap(b.0, b.1)
    requires Linked(g, a, b, hFirst)
    ensures g[a.0][a.1] == Floor && g[b.0][b.1] == Floor
    ensures hFirst ==> g[b.0][a.1] == Floor
    ensures !hFirst ==> g[a.0][b.1] == Floor
    ensures hFirst ==> forall i :: Min(a.0, b.0) <= i <= Max(a.0, b.0) ==> g[i][a.1] == Floor
    ensures hFirst ==> forall j :: Min(a.1, b.1) <= j <= Max(a.1, b.1) ==> g[b.0][j] == Floor
    ensures !hFirst ==> forall j :: Min(a.1, b.1) <= j <= Max(a.1, b.1) ==> g[a.0][j] == Floor
    ensures !hFirst ==> forall i :: Min(a.0, b.0) <= i <= Max(a.0, b.0) ==> g[i][b.1] == Floor
  {
  }

  /** Joining a new room to the previous one (source lines 387-396). */
  function Connect(g: Grid, prev: Room, next: Room, hFirst: bool): (g': Grid)
    requires WellFormed(g) && ValidRoom(prev) && ValidRoom(next)
    ensures WellFormed(g') && Carves(g, g')
    ensures Linked(g', prev.Center(), next.Center(), hFirst)
    // exactly the cells of the two bands become floor
    ensures forall i, j :: InMap(i, j) ==>
              g'[i][j] == (if InCorridor(prev.Center(), next.Center(), hFirst, i, j) then Floor else g[i][j])
  {
    var (px, py) := prev.Center();
    var (nx, ny) := next.Center();
    if hFirst then
      var g1 := HCorridor(g, px, nx, py);
      var g2 := VCorridor(g1, py, ny, nx);
      PreservedByCarving(g1, g2);
      g2
    else
      var g1 := VCorridor(g, py, ny, px);
      var g2 := HCorridor(g1, px, nx, ny);
      PreservedByCarving(g1, g2);
      g2
  }

  /** Every floor fact survives further carving. */
  lemma PreservedByCarving(g1: Grid, g2: Grid)
    requires WellFormed(g1) && WellFormed(g2) && Carves(g1, g2)
    ensures forall x1, x2, y :: HBandFloor(g1, x1, x2, y) ==> HBandFloor(g2, x1, x2, y)
    ensures forall y1, y2, x :: VBandFloor(g1, y1, y2, x) ==> VBandFloor(g2, y1, y2, x)
    ensures forall r :: RoomFloor(g1, r) ==> RoomFloor(g2, r)
    ensures forall a, b :: Connected(g1, a, b) ==> Connected(g2, a, b)
  {
  }

  // ---------------------------------------------------------------------------
  // Placement

  /** One placement attempt's random draws: `randint(4, 8)` twice, the origin
      inside the margin, and the corridor's axis order. */
  datatype Candidate = Candidate(w: int, h: int, x: int, y: int, hFirst: bool)

  predicate ValidCandidate(c: Candidate) {
    && MIN_ROOM_SIDE <= c.w <= MAX_ROOM_SIDE && MIN_ROOM_SIDE <= c.h <= MAX_ROOM_SIDE
    && 1 <= c.x <= MAP_WIDTH - c.w - 1
    && 1 <= c.y <= MAP_HEIGHT - c.h - 1
  }

  function CandidateRoom(c: Candidate): (r: Room)
    ensures ValidCandidate(c) ==> ValidRoom(r)
  {
    MakeRoom(c.x, c.y, c.w, c.h)
  }

  /** The generator's state: the map, the accepted rooms, and for each room
      the axis order of the corridor that joined it to the room before it
      (the first room's entry is never used). */
  datatype Generated = Generated(grid: Grid, rooms: seq<Room>, joins: seq<bool>)

  /** Before the first attempt: all walls, no rooms. */
  function Start(): Generated {
    Generated(AllWalls(), [], [])
  }

  /** A cell inside one of the rooms. */
  predicate InSomeRoom(rooms: seq<Room>, x: int, y: int) {
    exists k :: 0 <= k < |rooms| && rooms[k].Contains(x, y)
  }

  /** A cell inside the corridor that joined some room to the room before it. */
  predicate InSomeCorridor(rooms: seq<Room>, joins: seq<bool>, x: int, y: int)
    requires |joins| == |rooms|
  {
    exists k :: 0 < k < |rooms| && InCorridor(rooms[k - 1].Center(), rooms[k].Center(), joins[k], x, y)
  }

  /** A cell the generator has turned to floor. */
  predicate Dug(rooms: seq<Room>, joins: seq<bool>, x: int, y: int)
    requires |joins| == |rooms|
  {
    InSomeRoom(rooms, x, y) || InSomeCorridor(rooms, joins, x, y)
  }

  /** The map is floor exactly on the dug cells and wall everywhere else. */
  ghost predicate Floorplan(d: Generated) {
    && WellFormed(d.grid) && |d.joins| == |d.rooms|
    && forall x, y :: InMap(x, y) ==> (d.grid[x][y] == Floor <==> Dug(d.rooms, d.joins, x, y))
  }

  lemma StartFloorplan()
    ensures Floorplan(Start())
  {
  }

  /** Appending a room and its corridor order adds exactly that room's cells
      and its corridor's cells to the dug ones. */
  lemma DugAppend(rooms: seq<Room>, joins: seq<bool>, r: Room, o: bool, x: int, y: int)
    requires |joins| == |rooms|
    ensures Dug(rooms + [r], joins + [o], x, y) <==>
              || Dug(rooms, joins, x, y) || r.Contains(x, y)
              || (|rooms| > 0 && InCorridor(rooms[|rooms| - 1].Center(), r.Center(), o, x, y))
  {
    RoomsAppend(rooms, r, x, y);
    CorridorsAppend(rooms, joins, r, o, x, y);
  }

  lemma RoomsAppend(rooms: seq<Room>, r: Room, x: int, y: int)
    ensures InSomeRoom(rooms + [r], x, y) <==> InSomeRoom(rooms, x, y) || r.Contains(x, y)
  {
    var rs := rooms + [r];
    if InSomeRoom(rs, x, y) {
      var k :| 0 <= k < |rs| && rs[k].Contains(x, y);
      if k < |rooms| {
        assert rooms[k] == rs[k];
      }
    }
    if InSomeRoom(rooms, x, y) {
      var k :| 0 <= k < |rooms| && rooms[k].Contains(x, y);
      assert rs[k] == rooms[k];
    }
    assert rs[|rooms|] == r;
  }

  lemma CorridorsAppend(rooms: seq<Room>, joins: seq<bool>, r: Room, o: bool, x: int, y: int)
    requires |joins| == |rooms|
    ensures InSomeCorridor(rooms + [r], joins + [o], x, y) <==>
              || InSomeCorridor(rooms, joins, x, y)
              || (|rooms| > 0 && InCorridor(rooms[|rooms| - 1].Center(), r.Center(), o, x, y))
  {
    var rs, js, n := rooms + [r], joins + [o], |rooms|;
    if InSomeCorridor(rs, js, x, y) {
      var k :| 0 < k < |rs| && InCorridor(rs[k - 1].Center(), rs[k].Center(), js[k], x, y);
      if k < n {
        assert rs[k - 1] == rooms[k - 1] && rs[k] == rooms[k] && js[k] == joins[k];
      } else {
        assert rs[k - 1] == rooms[n - 1] && rs[k] == r && js[k] == o;
      }
    }
    if InSomeCorridor(rooms, joins, x, y) {
      var k :| 0 < k < n && InCorridor(rooms[k - 1].Center(), rooms[k].Center(), joins[k], x, y);
      assert rs[k - 1] == rooms[k - 1] && rs[k] == rooms[k] && js[k] == joins[k];
    }
    if n > 0 && InCorridor(rooms[n - 1].Center(), r.Center(), o, x, y) {
      assert rs[n - 1] == rooms[n - 1] && rs[n] == r && js[n] == o;
    }
  }

  /** What holds of the generator's state after every attempt. */
  ghost predicate Placed(g: Grid, rooms: seq<Room>) {
    && WellFormed(g)
    && (forall i :: 0 <= i < |rooms| ==> ValidRoom(rooms[i]))
    && PairwiseDisjoint(rooms)
    && (forall i :: 0 <= i < |rooms| ==> RoomFloor(g, rooms[i]))
    && (forall i :: 0 < i < |rooms| ==> Connected(g, rooms[i - 1], rooms[i]))
  }

  predicate Collides(r: Room, rooms: seq<Room>) {
    exists i :: 0 <= i < |rooms| && r.Intersects(rooms[i])
  }

  /** Carving an accepted room and, when there is a previous room, the
      corridor from the previous room's centre to the new one. */
  function Accept(g: Grid, rooms: seq<Room>, r: Room, hFirst: bool): (g': Grid)
    requires WellFormed(g) && ValidRoom(r)
    requires forall i :: 0 <= i < |rooms| ==> ValidRoom(rooms[i])
    ensures WellFormed(g') && Carves(g, g') && RoomFloor(g', r)
    ensures |rooms| > 0 ==> Linked(g', rooms[|rooms| - 1].Center(), r.Center(), hFirst)
    // exactly the room's cells and the joining corridor's cells become floor
    ensures forall i, j :: InMap(i, j) ==>
              g'[i][j] == (if r.Contains(i, j) || (|rooms| > 0 && InCorridor(rooms[|rooms| - 1].Center(), r.Center(), hFirst, i, j))
                           then Floor else g[i][j])
  {
    var g1 := CarveRoom(g, r);
    if |rooms| == 0 then g1
    else
      var g2 := Connect(g1, rooms[|rooms| - 1], r, hFirst);
      PreservedByCarving(g1, g2);
      CarvesTransitive(g, g1, g2);
      g2
  }

  lemma PlacedAfterAccept(g: Grid, rooms: seq<Room>, r: Room, hFirst: bool)
    requires Placed(g, rooms) && ValidRoom(r) && !Collides(r, rooms)
    ensures Placed(Accept(g, rooms, r, hFirst), rooms + [r])
  {
    var g' := Accept(g, rooms, r, hFirst);
    var rooms' := rooms + [r];
    DisjointAfterAppend(rooms, r);
    forall i | 0 <= i < |rooms'|
      ensures RoomFloor(g', rooms'[i])
    {
      if i < |rooms| {
        assert rooms'[i] == rooms[i];
        FloorSurvives(g, g', rooms[i], rooms[i]);
      }
    }
    forall i | 0 < i < |rooms'|
      ensures Connected(g', rooms'[i - 1], rooms'[i])
    {
      if i < |rooms| {
        assert rooms'[i - 1] == rooms[i - 1] && rooms'[i] == rooms[i];
        FloorSurvives(g, g', rooms[i - 1], rooms[i]);
      } else {
        assert rooms'[i - 1] == rooms[|rooms| - 1] && rooms'[i] == r;
      }
    }
  }

  /** Appending a room that meets none of the others keeps them pairwise disjoint. */
  lemma DisjointAfterAppend(rooms: seq<Room>, r: Room)
    requires PairwiseDisjoint(rooms) && !Collides(r, rooms)
    ensures PairwiseDisjoint(rooms + [r])
  {
    var rooms' := rooms + [r];
    forall i, j | 0 <= i < j < |rooms'|
      ensures !rooms'[j].Intersects(rooms'[i])
    {
      if j == |rooms| {
        assert !r.Intersects(rooms[i]);
      } else {
        assert rooms'[j] == rooms[j] && rooms'[i] == rooms[i];
      }
    }
  }

  /** The room floor of a and the connection from a to b, each survive carving. */
  lemma FloorSurvives(g1: Grid, g2: Grid, a: Room, b: Room)
    requires WellFormed(g1) && WellFormed(g2) && Carves(g1, g2)
    ensures RoomFloor(g1, a) ==> RoomFloor(g2, a)
    ensures Connected(g1, a, b) ==> Connected(g2, a, b)
  {
    PreservedByCarving(g1, g2);
  }

  /** One iteration of the generator loop: skip a colliding candidate, or carve
      it, join it to the last accepted room and append it. */
  function Place(d: Generated, c: Candidate): (d': Generated)
    requires Placed(d.grid, d.rooms) && ValidCandidate(c)
    ensures Placed(d'.grid, d'.rooms) && Carves(d.grid, d'.grid)
    ensures Collides(CandidateRoom(c), d.rooms) ==> d' == d
    ensures !Collides(CandidateRoom(c), d.rooms) ==>
              d'.rooms == d.rooms + [CandidateRoom(c)] && d'.joins == d.joins + [c.hFirst]
    ensures !Collides(CandidateRoom(c), d.rooms) && |d.rooms| > 0 ==>
              Linked(d'.grid, d.rooms[|d.rooms| - 1].Center(), CandidateRoom(c).Center(), c.hFirst)
    // an accepted attempt turns exactly its room and its corridor into floor
    ensures !Collides(CandidateRoom(c), d.rooms) ==>
              forall i, j :: InMap(i, j) ==>
                d'.grid[i][j] == (if || CandidateRoom(c).Contains(i, j)
                                     || (|d.rooms| > 0 &&
                                         InCorridor(d.rooms[|d.rooms| - 1].Center(), CandidateRoom(c).Center(), c.hFirst, i, j))
                                  then Floor else d.grid[i][j])
    ensures Floorplan(d) ==> Floorplan(d')
  {
    var r := CandidateRoom(c);
    if Collides(r, d.rooms) then d
    else
      PlacedAfterAccept(d.grid, d.rooms, r, c.hFirst);
      FloorplanAfterAccept(d, r, c.hFirst);
      Generated(Accept(d.grid, d.rooms, r, c.hFirst), d.rooms + [r], d.joins + [c.hFirst])
  }

  /** Carving a room and its corridor digs exactly the cells the appended room
      and its corridor order add to the floor plan. */
  lemma FloorplanAfterAccept(d: Generated, r: Room, o: bool)
    requires WellFormed(d.grid) && ValidRoom(r)
    requires forall i :: 0 <= i < |d.rooms| ==> ValidRoom(d.rooms[i])
    ensures Floorplan(d) ==>
              Floorplan(Generated(Accept(d.grid, d.rooms, r, o), d.rooms + [r], d.joins + [o]))
  {
    if Floorplan(d) {
      var g' := Accept(d.grid, d.rooms, r, o);
      forall x, y | InMap(x, y)
        ensures g'[x][y] == Floor <==> Dug(d.rooms + [r], d.joins + [o], x, y)
      {
        DugAppend(d.rooms, d.joins, r, o, x, y);
      }
    }
  }

  /** The remaining attempts of the loop. */
  function PlaceAll(d: Generated, cs: seq<Candidate>): (d': Generated)
    requires Placed(d.grid, d.rooms)
    requires forall k :: 0 <= k < |cs| ==> ValidCandidate(cs[k])
    ensures Placed(d'.grid, d'.rooms) && Carves(d.grid, d'.grid)
    ensures |d.rooms| <= |d'.rooms| <= |d.rooms| + |cs|
    ensures d'.rooms[..|d.rooms|] == d.rooms
    // every attempt was either accepted or collides with an accepted room,
    // and every room added is one of the attempts
    ensures forall k :: 0 <= k < |cs| ==>
              CandidateRoom(cs[k]) in d'.rooms || Collides(CandidateRoom(cs[k]), d'.rooms)
    ensures forall j :: |d.rooms| <= j < |d'.rooms| ==> d'.rooms[j] in CandidateRooms(cs)
    ensures Floorplan(d) ==> Floorplan(d')
    decreases |cs|
  {
    if |cs| == 0 then d
    else
      var d1 := Place(d, cs[0]);
      var d2 := PlaceAll(d1, cs[1..]);
      CarvesTransitive(d.grid, d1.grid, d2.grid);
      assert d2.rooms[..|d.rooms|] == d2.rooms[..|d1.rooms|][..|d.rooms|];
      AttemptsAccounted(d, cs, d1, d2);
      d2
  }

  /** The rooms the attempts would give, in order. */
  function CandidateRooms(cs: seq<Candidate>): seq<Room> {
    seq(|cs|, k requires 0 <= k < |cs| => CandidateRoom(cs[k]))
  }

  /** A room colliding with some rooms collides with any list they begin. */
  lemma CollidesExtended(r: Room, rooms: seq<Room>, more: seq<Room>)
    requires |rooms| <= |more| && more[..|rooms|] == rooms
    requires Collides(r, rooms)
    ensures Collides(r, more)
  {
    var i :| 0 <= i < |rooms| && r.Intersects(rooms[i]);
    assert more[i] == rooms[i];
  }

  /** The first attempt and the rest, put together. */
  lemma AttemptsAccounted(d: Generated, cs: seq<Candidate>, d1: Generated, d2: Generated)
    requires Placed(d.grid, d.rooms) && |cs| > 0
    requires forall k :: 0 <= k < |cs| ==> ValidCandidate(cs[k])
    requires d1 == Place(d, cs[0])
    requires |d1.rooms| <= |d2.rooms| && d2.rooms[..|d1.rooms|] == d1.rooms
    requires forall k :: 0 <= k < |cs| - 1 ==>
               CandidateRoom(cs[1..][k]) in d2.rooms || Collides(CandidateRoom(cs[1..][k]), d2.rooms)
    requires forall j :: |d1.rooms| <= j < |d2.rooms| ==> d2.rooms[j] in CandidateRooms(cs[1..])
    ensures forall k :: 0 <= k < |cs| ==>
              CandidateRoom(cs[k]) in d2.rooms || Collides(CandidateRoom(cs[k]), d2.rooms)
    ensures forall j :: |d.rooms| <= j < |d2.rooms| ==> d2.rooms[j] in CandidateRooms(cs)
  {
    var r := CandidateRoom(cs[0]);
    if Collides(r, d.rooms) {
      CollidesExtended(r, d.rooms, d2.rooms);
    } else {
      assert d2.rooms[|d.rooms|] == d1.rooms[|d.rooms|] == r;
    }
    forall k | 1 <= k < |cs|
      ensures CandidateRoom(cs[k]) in d2.rooms || Collides(CandidateRoom(cs[k]), d2.rooms)
    {
      assert cs[k] == cs[1..][k - 1];
    }
    forall j | |d.rooms| <= j < |d2.rooms|
      ensures d2.rooms[j] in CandidateRooms(cs)
    {
      if j < |d1.rooms| {
        assert d2.rooms[j] == d1.rooms[j] == r;
        assert CandidateRooms(cs)[0] == r;
      } else {
        var k :| 0 <= k < |cs| - 1 && CandidateRooms(cs[1..])[k] == d2.rooms[j];
        assert CandidateRooms(cs)[k + 1] == d2.rooms[j];
      }
    }
  }

  /** Attempts run one after another: the loop over a + b is the loop over
      a, then the loop over b from where it left off. */
  lemma {:induction false} PlaceAllAppend(d: Generated, a: seq<Candidate>, b: seq<Candidate>)
    requires Placed(d.grid, d.rooms)
    requires forall k :: 0 <= k < |a| ==> ValidCandidate(a[k])
    requires forall k :: 0 <= k < |b| ==> ValidCandidate(b[k])
    ensures PlaceAll(d, a + b) == PlaceAll(PlaceAll(d, a), b)
    decreases |a|
  {
    if |a| == 0 {
      assert a + b == b;
    } else {
      assert (a + b)[0] == a[0] && (a + b)[1..] == a[1..] + b;
      PlaceAllAppend(Place(d, a[0]), a[1..], b);
    }
  }

  /** The loop is greedy: attempt k is appended exactly when its room meets
      none of the rooms kept from the attempts before it, so of two free
      attempts that overlap each other the earlier one is kept. */
  lemma GreedyAcceptance(d: Generated, cs: seq<Candidate>, k: int)
    requires Placed(d.grid, d.rooms)
    requires forall k :: 0 <= k < |cs| ==> ValidCandidate(cs[k])
    requires 0 <= k < |cs|
    ensures var kept := PlaceAll(d, cs[..k]).rooms;
            PlaceAll(d, cs[..k + 1]).rooms ==
              if Collides(CandidateRoom(cs[k]), kept) then kept else kept + [CandidateRoom(cs[k])]
  {
    assert cs[..k + 1] == cs[..k] + [cs[k]];
    PlaceAllAppend(d, cs[..k], [cs[k]]);
    var before := PlaceAll(d, cs[..k]);
    assert [cs[k]][1..] == [];
    assert PlaceAll(before, [cs[k]]) == Place(before, cs[k]);
  }

  /** `generate_dungeon()` with its random draws passed in: the attempt loop
      from the all-wall map, at least one room (the first attempt has nothing
      to collide with), every room well-shaped, rooms pairwise disjoint,
      consecutive rooms joined by a corridor, and a cell is floor exactly
      when it lies in a room or in the corridor that joined a room to the
      one before it. */
  function GenerateDungeon(cs: seq<Candidate>): (d: Generated)
    requires |cs| == ROOM_ATTEMPTS
    requires forall k :: 0 <= k < |cs| ==> ValidCandidate(cs[k])
    ensures d == PlaceAll(Start(), cs)
    ensures 1 <= |d.rooms| <= ROOM_ATTEMPTS
    ensures d.rooms[0] == CandidateRoom(cs[0])
    ensures Placed(d.grid, d.rooms)
    ensures Floorplan(d)
  {
    var d1 := Place(Start(), cs[0]);
    assert d1.rooms == [CandidateRoom(cs[0])];
    StartFloorplan();
    var d := PlaceAll(d1, cs[1..]);
    assert d.rooms[0] == d.rooms[..1][0];
    d
  }

  /** Rejected candidates are skipped, not retried: attempts that all collide
      with rooms already placed leave the generator's state unchanged. */
  lemma {:induction false} CollidingAttemptsSkipped(d: Generated, cs: seq<Candidate>)
    requires Placed(d.grid, d.rooms)
    requires forall k :: 0 <= k < |cs| ==> ValidCandidate(cs[k])
    requires forall k :: 0 <= k < |cs| ==> Collides(CandidateRoom(cs[k]), d.rooms)
    ensures PlaceAll(d, cs) == d
    decreases |cs|
  {
    if |cs| > 0 {
      assert Place(d, cs[0]) == d;
      CollidingAttemptsSkipped(d, cs[1..]);
    }
  }

  /** So a level may have a single room: five equal draws place one room. */
  lemma RepeatedDrawsGiveOneRoom(c: Candidate)
    requires ValidCandidate(c)
    ensures |GenerateDungeon([c, c, c, c, c]).rooms| == 1
  {
    var cs := [c, c, c, c, c];
    var d1 := Place(Start(), c);
    assert d1.rooms == [CandidateRoom(c)];
    assert CandidateRoom(c).Intersects(d1.rooms[0]);
    CollidingAttemptsSkipped(d1, cs[1..]);
  }
}

=== FILE: entities.dfy ===
/** The records of a level: upgrades kept across levels, the player, enemies,
    bullets and coins, and the constructors that give each its initial state. */
module Entities {
  import opened Geometry

  datatype Option<T> = None | Some(value: T)

  const BASE_HEALTH: int := 6
  const PLAYER_SPEED: int := 4
  const SHOT_DELAY: int := 300
  const PLAYER_SIDE: nat := 16
  const ENEMY_SIDE: nat := 16
  const BOSS_SIDE: nat := 32
  const BULLET_SIDE: nat := 8
  const COIN_SIDE: nat := 16
  const BOSS_HEALTH: int := 10
  const ENEMY_HEALTH: int := 1
  const ENEMY_SPEED: int := 2
  const ACTIVATION_DELAY: int := 500

  /** `PlayerUpgrades`: the shop's purchases, kept across the levels of a run. */
  datatype Upgrades = Upgrades(multishotLevel: nat, hasHoming: bool, healthLevel: nat)

  const NO_UPGRADES: Upgrades := Upgrades(0, false, 0)

  /** The player's state; health and the shot clock are in half-hearts and
      milliseconds. */
  datatype Player = Player(
    rect: Rect,
    healthBonus: int,
    maxHealth: int,
    health: int,
    multishotLevel: nat,
    hasHoming: bool,
    coins: int,
    lastShot: int)

  /** The player agrees with the run's upgrades and its counters are in range. */
  predicate Consistent(p: Player, u: Upgrades) {
    && p.healthBonus == u.healthLevel
    && p.maxHealth == BASE_HEALTH + p.healthBonus
    && p.health <= p.maxHealth
    && p.multishotLevel == u.multishotLevel
    && p.hasHoming == u.hasHoming
    && p.coins >= 0
  }

  /** `Player(pos, upgrades)`: full health of 6 + health_level half-hearts, no
      coins (coins never carry over from an earlier level), upgrades copied. */
  function NewPlayer(pos: Point, u: Upgrades): (p: Player)
    ensures Consistent(p, u)
    ensures p.health == p.maxHealth == BASE_HEALTH + u.healthLevel
    ensures p.coins == 0 && p.lastShot == 0
    ensures p.rect.Center() == pos && p.rect.w == PLAYER_SIDE && p.rect.h == PLAYER_SIDE
  {
    var bonus := u.healthLevel;
    Player(RectAround(pos, PLAYER_SIDE, PLAYER_SIDE), bonus, BASE_HEALTH + bonus,
           BASE_HEALTH + bonus, u.multishotLevel, u.hasHoming, 0, 0)
  }

  /** An enemy; its wander step is the integer pixel step of its random stuck
      direction at its speed, `None` while it pursues the player. */
  datatype Enemy = Enemy(
    rect: Rect,
    isBoss: bool,
    health: int,
    stuckTimer: nat,
    stuckDir: Option<Point>,
    lastPos: Point,
    activationTime: int)

  /** Which of the two sprite images loaded; they decide the branch
      `Enemy.__init__` takes. */
  datatype Assets = Assets(bossImage: bool, enemyImage: bool)

  /** `Enemy(pos, is_boss)` exactly as written: the `elif enemy_img` branch gives
      health 1 and the small sprite even to a boss when only the boss image is
      missing. */
  function NewEnemyAsWritten(pos: Point, isBoss: bool, now: int, a: Assets): (e: Enemy)
    ensures e.isBoss == isBoss && e.rect.Center() == pos
    ensures isBoss && a.bossImage ==> e.health == BOSS_HEALTH && e.rect.w == BOSS_SIDE
    ensures !isBoss ==> e.health == ENEMY_HEALTH && e.rect.w == ENEMY_SIDE
    ensures isBoss && !a.bossImage && a.enemyImage ==> e.health == ENEMY_HEALTH && e.rect.w == ENEMY_SIDE
  {
    var (side, health) :=
      if isBoss && a.bossImage then (BOSS_SIDE, BOSS_HEALTH)
      else if a.enemyImage then (ENEMY_SIDE, ENEMY_HEALTH)
      else if isBoss then (BOSS_SIDE, BOSS_HEALTH)
      else (ENEMY_SIDE, ENEMY_HEALTH);
    Enemy(RectAround(pos, side, side), isBoss, health, 0, None, pos, now + ACTIVATION_DELAY)
  }

  /** A boss built while boss.png is missing and enemy.png is present has one
      hit point instead of ten. */
  lemma BossHealthDependsOnAssets(pos: Point, now: int)
    ensures NewEnemyAsWritten(pos, true, now, Assets(false, true)).health == 1
    ensures NewEnemyAsWritten(pos, true, now, Assets(true, true)).health == 10
  {
  }

  /** `Enemy(pos, is_boss)` as evidently intended: ten hit points and a 32-pixel
      square for a boss, one and 16 for any other enemy, whatever images loaded;
      still, at the cell it was spawned on, inert for 500 ms. */
  function NewEnemy(pos: Point, isBoss: bool, now: int): (e: Enemy)
    ensures e.isBoss == isBoss && e.rect.Center() == pos
    ensures e.health == (if isBoss then BOSS_HEALTH else ENEMY_HEALTH)
    ensures e.rect.w == e.rect.h == (if isBoss then BOSS_SIDE else ENEMY_SIDE)
    ensures e.stuckTimer == 0 && e.stuckDir == None && e.lastPos == pos
    ensures e.activationTime == now + ACTIVATION_DELAY
    ensures forall a: Assets :: e == NewEnemyAsWritten(pos, isBoss, now, a) <==> (!isBoss || a.bossImage || !a.enemyImage)
  {
    var side := if isBoss then BOSS_SIDE else ENEMY_SIDE;
    Enemy(RectAround(pos, side, side), isBoss, if isBoss then BOSS_HEALTH else ENEMY_HEALTH,
          0, None, pos, now + ACTIVATION_DELAY)
  }

  /** A bullet: its 8x8 box, the shot direction and its angle offset in
      degrees, and the integer step it moves each frame. */
  datatype Bullet = Bullet(rect: Rect, dir: Point, angle: int, homing: bool, step: Point)

  datatype Coin = Coin(rect: Rect)

  /** `Coin(pos)`: a 16x16 pickup centred on pos. */
  function NewCoin(pos: Point): (c: Coin)
    ensures c.rect.Center() == pos && c.rect.w == COIN_SIDE && c.rect.h == COIN_SIDE
  {
    Coin(RectAround(pos, COIN_SIDE, COIN_SIDE))
  }
}

=== FILE: game.dfy ===
/** The level and run controller of `main`: populating a level from a
    generated dungeon, one frame of the simulation in the source's update
    order, the end-of-level test, and the run counters (level number, shop
    after even levels, reset on restart). */
module Game {
  import opened Geometry
  import opened Dungeon
  import opened Walls
  import opened Entities
  import opened PlayerActions
  import opened Combat
  import opened Spawn
  import opened Shop

  /** Enemies of a level: `level + 2`. */
  function EnemyCount(level: nat): nat {
    level + 2
  }

  /** A level in play: the world, the bullets in flight and the exit door. */
  datatype Level = Level(world: World, bullets: seq<Bullet>, door: Rect)

  /** What every frame keeps true of a level. */
  predicate LevelInvariant(lv: Level) {
    && lv.world.player.rect.w == PLAYER_SIDE && lv.world.player.rect.h == PLAYER_SIDE
    && lv.world.player.coins >= 0
    && Alive(lv.world.enemies)
  }

  /** The door: a 32x32 square on the centre tile of the last room. */
  function DoorRect(rooms: seq<Room>): Rect
    requires |rooms| > 0
  {
    var (cx, cy) := rooms[|rooms| - 1].Center();
    TileRect(cx, cy)
  }

  /** The player a level starts with: on the first room's centre tile, with
      the run's upgrades and no coins, clear of every wall. */
  function StartPlayer(d: Generated, u: Upgrades): (p: Player)
    requires Placed(d.grid, d.rooms) && |d.rooms| > 0
    ensures p.rect.w == PLAYER_SIDE && p.rect.h == PLAYER_SIDE
    ensures p.coins == 0
    ensures p.health == p.maxHealth == BASE_HEALTH + u.healthLevel
    ensures Consistent(p, u)
    ensures !HitsAny(p.rect, WallColliders(d.grid))
    ensures PixelTile(p.rect.Center()) == d.rooms[0].Center()
  {
    var (sx, sy) := d.rooms[0].Center();
    assert RoomFloor(d.grid, d.rooms[0]);
    CentredOnFloorIsClear(d.grid, sx, sy, PLAYER_SIDE);
    TileCentreRoundTrip(sx, sy);
    NewPlayer(TileCentre(sx, sy), u)
  }

  /** Populating a level (source lines 632-669): walls from the grid, the
      player, the door, `level + 2` enemies and the coins. */
  function PopulateLevel(level: nat, u: Upgrades, d: Generated, picks: seq<SpawnPick>,
                         coinDraws: seq<seq<(int, int)>>, now: int): (lv: Level)
    requires Placed(d.grid, d.rooms) && |d.rooms| > 0
    requires |picks| == EnemyCount(level)
    requires forall k :: 0 <= k < |picks| ==> ValidPick(d.rooms, picks[k])
    requires ValidCoinDraws(d.rooms, coinDraws)
    ensures LevelInvariant(lv)
    ensures lv.world.walls == WallColliders(d.grid)
    ensures lv.world.player == StartPlayer(d, u)
    ensures |lv.world.enemies| == level + 2
    ensures lv.bullets == [] && lv.door == DoorRect(d.rooms)
    // the enemies and coins are exactly those the spawners place
    ensures lv.world.enemies == SpawnEnemies(EnemyCount(level), d.rooms, picks, now)
    ensures lv.world.coins == SpawnCoins(d.rooms, coinDraws)
  {
    var enemies := SpawnEnemies(EnemyCount(level), d.rooms, picks, now);
    assert Alive(enemies);
    Level(World(StartPlayer(d, u), enemies, SpawnCoins(d.rooms, coinDraws), WallColliders(d.grid)),
          [], DoorRect(d.rooms))
  }

  /** Enemies spawn clear of the walls too: each stands centred on an interior
      tile of a room. */
  lemma EnemiesSpawnClear(level: nat, d: Generated, picks: seq<SpawnPick>, now: int, k: int)
    requires Placed(d.grid, d.rooms) && |d.rooms| > 0
    requires |picks| == EnemyCount(level)
    requires forall j :: 0 <= j < |picks| ==> ValidPick(d.rooms, picks[j])
    requires 0 <= k < |picks|
    ensures !HitsAny(SpawnEnemies(EnemyCount(level), d.rooms, picks, now)[k].rect, WallColliders(d.grid))
  {
    var e := SpawnEnemies(EnemyCount(level), d.rooms, picks, now)[k];
    var p := picks[k];
    SpawnsOnFloor(d, picks, k);
    var side := if e.isBoss then BOSS_SIDE else ENEMY_SIDE;
    assert e.rect == RectAround(TileCentre(p.x, p.y), side, side);
    CentredOnFloorIsClear(d.grid, p.x, p.y, side);
  }

  // ---------------------------------------------------------------------------
  // One frame

  /** Some key-down event of the frame asks to shoot, and the cooldown has passed. */
  predicate Fires(p: Player, dirs: seq<Point>, now: int) {
    now - p.lastShot >= SHOT_DELAY && exists k :: 0 <= k < |dirs| && dirs[k] != Point(0, 0)
  }

  /** The direction of the frame's first shooting key, if any. */
  function FirstAim(dirs: seq<Point>): Point {
    if |dirs| == 0 then Point(0, 0)
    else if dirs[0] != Point(0, 0) then dirs[0]
    else FirstAim(dirs[1..])
  }

  lemma FiresTail(p: Player, dirs: seq<Point>, now: int)
    requires |dirs| > 0 && dirs[0] == Point(0, 0)
    ensures Fires(p, dirs, now) <==> Fires(p, dirs[1..], now)
  {
    if Fires(p, dirs, now) {
      var k :| 0 <= k < |dirs| && dirs[k] != Point(0, 0);
      assert dirs[1..][k - 1] == dirs[k];
    }
    if Fires(p, dirs[1..], now) {
      var k :| 0 <= k < |dirs| - 1 && dirs[1..][k] != Point(0, 0);
      assert dirs[k + 1] == dirs[1..][k];
    }
  }

  /** The shoot commands of this frame's key-down events, in order.  All of
      them share the frame's clock, so at most one volley leaves per frame. */
  function ShootAll(p: Player, dirs: seq<Point>, now: int, aim: (Point, int) -> Point): (v: Volley)
    ensures v.player == p.(lastShot := v.player.lastShot)
    ensures v.player.lastShot == p.lastShot || v.player.lastShot == now
    ensures forall k :: 0 <= k < |v.bullets| ==> v.bullets[k].rect.Center() == p.rect.Center()
    ensures forall k :: 0 <= k < |v.bullets| ==> v.bullets[k].homing == p.hasHoming
    // no shot, or still cooling down: nothing at all happens
    ensures !Fires(p, dirs, now) ==> v == Volley(p, [])
    // otherwise exactly one full volley, and the cooldown restarts
    ensures Fires(p, dirs, now) ==>
              && v.player == p.(lastShot := now)
              && |v.bullets| == 1 + 2 * p.multishotLevel
              && v.bullets == Shoot(p, FirstAim(dirs), now, aim).bullets
    decreases |dirs|
  {
    if |dirs| == 0 then Volley(p, [])
    else
      var v1 := Shoot(p, dirs[0], now, aim);
      var v2 := ShootAll(v1.player, dirs[1..], now, aim);
      if dirs[0] == Point(0, 0) then
        FiresTail(p, dirs, now);
        Volley(v2.player, v1.bullets + v2.bullets)
      else if now - p.lastShot < SHOT_DELAY then
        assert v1 == Volley(p, []) && !Fires(p, dirs[1..], now);
        Volley(v2.player, v1.bullets + v2.bullets)
      else
        assert v1.player == p.(lastShot := now) && !Fires(v1.player, dirs[1..], now);
        assert v2 == Volley(v1.player, []) && v1.bullets + v2.bullets == v1.bullets;
        assert Fires(p, dirs, now) by { assert dirs[0] != Point(0, 0); }
        Volley(v2.player, v1.bullets + v2.bullets)
  }

  /** Where an enemy stands after its update when it touches nobody: unchanged
      before activation, otherwise moved by its AI step. */
  function Stepped(e: Enemy, walls: seq<Rect>, now: int, d: EnemyDraws): Enemy
    requires StuckInvariant(e)
  {
    if now < e.activationTime then e else EnemyAI(e, walls, d)
  }

  /** No enemy from index i on reaches the player with this frame's step. */
  predicate NoContact(w: World, i: nat, now: int, ds: seq<EnemyDraws>)
    requires i <= |w.enemies| && |ds| == |w.enemies| - i && Alive(w.enemies)
  {
    forall k :: i <= k < |w.enemies| && now >= w.enemies[k].activationTime ==>
      !Overlaps(EnemyAI(w.enemies[k], w.walls, ds[k - i]).rect, w.player.rect)
  }

  /** Without contact, enemy i's update only steps it, and the others still
      do not reach the player. */
  lemma NoContactStep(w: World, i: nat, now: int, ds: seq<EnemyDraws>)
    requires i < |w.enemies| && |ds| == |w.enemies| - i && Alive(w.enemies)
    ensures NoContact(w, i, now, ds) ==>
              && UpdateEnemy(w, i, now, ds[0]) == w.(enemies := w.enemies[i := Stepped(w.enemies[i], w.walls, now, ds[0])])
              && NoContact(UpdateEnemy(w, i, now, ds[0]), i + 1, now, ds[1..])
  {
    if NoContact(w, i, now, ds) {
      var w1 := UpdateEnemy(w, i, now, ds[0]);
      assert w1 == w.(enemies := w.enemies[i := Stepped(w.enemies[i], w.walls, now, ds[0])]);
      forall k | i + 1 <= k < |w1.enemies| && now >= w1.enemies[k].activationTime
        ensures !Overlaps(EnemyAI(w1.enemies[k], w1.walls, ds[1..][k - (i + 1)]).rect, w1.player.rect)
      {
        assert w1.enemies[k] == w.enemies[k] && ds[1..][k - (i + 1)] == ds[k - i];
      }
    }
  }

  /** The enemies' updates in group order; `ds` holds one set of draws for
      each enemy from index i on.  An enemy spent on contact leaves the list,
      so the next one moves into its place. */
  function UpdateEnemies(w: World, i: nat, now: int, ds: seq<EnemyDraws>): (w': World)
    requires i <= |w.enemies| && |ds| == |w.enemies| - i
    requires Alive(w.enemies)
    ensures Alive(w'.enemies)
    ensures w'.walls == w.walls
    ensures w'.player == w.player.(health := w'.player.health)
    ensures w.player.health - 2 * |ds| <= w'.player.health <= w.player.health
    ensures |w'.enemies| <= |w.enemies| <= |w'.enemies| + |ds|
    // the enemies before index i are not touched
    ensures i <= |w'.enemies| && w'.enemies[..i] == w.enemies[..i]
    // each enemy spent on contact drops one coin and cost at least one half-heart
    ensures |w'.coins| == |w.coins| + (|w.enemies| - |w'.enemies|) && w'.coins[..|w.coins|] == w.coins
    ensures w.player.health - w'.player.health >= |w.enemies| - |w'.enemies|
    // without contact, every enemy takes its own step and nothing else changes
    ensures NoContact(w, i, now, ds) ==>
              && w'.player == w.player && w'.coins == w.coins && |w'.enemies| == |w.enemies|
              && forall k :: i <= k < |w.enemies| ==> w'.enemies[k] == Stepped(w.enemies[k], w.walls, now, ds[k - i])
    decreases |ds|
  {
    if |ds| == 0 then w
    else
      var w1 := UpdateEnemy(w, i, now, ds[0]);
      NoContactStep(w, i, now, ds);
      if |w1.enemies| < |w.enemies| then
        var w' := UpdateEnemies(w1, i, now, ds[1..]);
        assert w1.enemies[..i] == w.enemies[..i];
        assert w'.coins[..|w.coins|] == w'.coins[..|w1.coins|][..|w.coins|];
        w'
      else
        var w' := UpdateEnemies(w1, i + 1, now, ds[1..]);
        assert w1.enemies[..i] == w.enemies[..i];
        assert w'.enemies[..i] == w'.enemies[..i + 1][..i];
        assert w1.enemies[..i] == w1.enemies[..i + 1][..i];
        assert w'.enemies[i] == w'.enemies[..i + 1][i];
        w'
  }

  /** The bullets' updates in creation order; those still flying are kept. */
  function UpdateBullets(w: World, bs: seq<Bullet>): (res: (World, seq<Bullet>))
    requires Alive(w.enemies)
    ensures Alive(res.0.enemies)
    ensures res.0.walls == w.walls
    ensures res.0.player == w.player.(coins := res.0.player.coins)
    ensures w.player.coins <= res.0.player.coins <= w.player.coins + |bs|
    ensures |res.0.enemies| <= |w.enemies| && |res.1| <= |bs|
    ensures |w.enemies| - |res.0.enemies| == res.0.player.coins - w.player.coins
    // each kill also drops one coin on the floor
    ensures |res.0.coins| == |w.coins| + (|w.enemies| - |res.0.enemies|) && res.0.coins[..|w.coins|] == w.coins
    ensures forall r :: Clear(r, w.enemies) ==> Clear(r, res.0.enemies)
    // the bullets still flying are input bullets moved by their step, and
    // every bullet with nothing in its way is among them
    ensures forall k :: 0 <= k < |res.1| ==> res.1[k] in MovedBullets(bs)
    ensures forall j :: 0 <= j < |bs| && Unobstructed(bs[j], w) ==> Advanced(bs[j]) in res.1
    decreases |bs|
  {
    if |bs| == 0 then (w, [])
    else
      var r := StepBullet(bs[0], w);
      var (w2, rest) := UpdateBullets(r.world, bs[1..]);
      var kept := if r.bullet.Some? then [r.bullet.value] + rest else rest;
      assert w2.coins[..|w.coins|] == w2.coins[..|r.world.coins|][..|w.coins|];
      KeptBullets(w, bs, r.bullet, r.world, rest, kept);
      (w2, kept)
  }

  /** The first bullet's fate and the rest's, put together. */
  lemma KeptBullets(w: World, bs: seq<Bullet>, first: Option<Bullet>, w1: World, rest: seq<Bullet>, kept: seq<Bullet>)
    requires |bs| > 0
    requires first == None || first == Some(Advanced(bs[0]))
    requires Unobstructed(bs[0], w) ==> first == Some(Advanced(bs[0]))
    requires w1.walls == w.walls && forall r :: Clear(r, w.enemies) ==> Clear(r, w1.enemies)
    requires forall k :: 0 <= k < |rest| ==> rest[k] in MovedBullets(bs[1..])
    requires forall j :: 0 <= j < |bs| - 1 && Unobstructed(bs[1..][j], w1) ==> Advanced(bs[1..][j]) in rest
    requires kept == if first.Some? then [first.value] + rest else rest
    ensures forall k :: 0 <= k < |kept| ==> kept[k] in MovedBullets(bs)
    ensures forall j :: 0 <= j < |bs| && Unobstructed(bs[j], w) ==> Advanced(bs[j]) in kept
  {
    assert MovedBullets(bs) == [Advanced(bs[0])] + MovedBullets(bs[1..]);
    forall j | 1 <= j < |bs| && Unobstructed(bs[j], w)
      ensures Advanced(bs[j]) in kept
    {
      assert bs[j] == bs[1..][j - 1];
      assert Unobstructed(bs[1..][j - 1], w1);
    }
  }

  /** The bullets moved by their steps, in order. */
  function MovedBullets(bs: seq<Bullet>): seq<Bullet> {
    seq(|bs|, j requires 0 <= j < |bs| => Advanced(bs[j]))
  }

  /** One frame of the level loop (source lines 673-701): shots, the player's
      move, pickup and clamp, the enemies, the bullets, then the door test. */
  function Frame(lv: Level, now: int, shots: seq<Point>, keys: Held,
                 ds: seq<EnemyDraws>, aim: (Point, int) -> Point): (res: (Level, bool))
    requires LevelInvariant(lv) && |ds| == |lv.world.enemies|
    ensures LevelInvariant(res.0)
    ensures res.0.world.walls == lv.world.walls && res.0.door == lv.door
    ensures res.0.world.player.coins >= lv.world.player.coins
    ensures lv.world.player.health - 2 * |lv.world.enemies| <= res.0.world.player.health <= lv.world.player.health
    ensures |res.0.world.enemies| <= |lv.world.enemies|
    ensures InViewport(res.0.world.player.rect)
    ensures res.0.world.player.maxHealth == lv.world.player.maxHealth
    ensures res.0.world.player.multishotLevel == lv.world.player.multishotLevel
    ensures res.1 <==> Overlaps(res.0.world.player.rect, lv.door)
    // the phases: the keys move the player, then the clamp
    ensures res.0.world.player.rect ==
              Clamp(Move(lv.world.player.rect, lv.world.walls, KeyStep(keys).0, KeyStep(keys).1))
    // at most one volley, and the cooldown restarts exactly when it leaves
    ensures res.0.world.player.lastShot ==
              if Fires(lv.world.player, shots, now) then now else lv.world.player.lastShot
    // the purse gains the coins picked up, plus at most one per enemy gone
    ensures lv.world.player.coins + Pickup(lv, keys) <= res.0.world.player.coins
              <= lv.world.player.coins + Pickup(lv, keys) + (|lv.world.enemies| - |res.0.world.enemies|)
    // the floor loses the coins picked up and gains one per enemy gone
    ensures |res.0.world.coins| + Pickup(lv, keys) == |lv.world.coins| + (|lv.world.enemies| - |res.0.world.enemies|)
    // every bullet still flying is an old or a new one moved by its step
    ensures forall k :: 0 <= k < |res.0.bullets| ==>
              res.0.bullets[k] in MovedBullets(lv.bullets + ShootAll(lv.world.player, shots, now, aim).bullets)
  {
    var w := lv.world;
    var v := ShootAll(w.player, shots, now, aim);
    var (dx, dy) := KeyStep(keys);
    var (p1, coinsLeft) := UpdatePlayer(v.player, w.walls, w.coins, dx, dy);
    PickupCount(v.player.rect, w.walls, w.coins, dx, dy, coinsLeft);
    var w1 := w.(player := p1, coins := coinsLeft);
    var w2 := UpdateEnemies(w1, 0, now, ds);
    var (w3, flying) := UpdateBullets(w2, lv.bullets + v.bullets);
    (Level(w3, flying, lv.door), Overlaps(w3.player.rect, lv.door))
  }

  /** How many coins the frame's move lands the player on. */
  function Pickup(lv: Level, keys: Held): nat {
    Collect(Move(lv.world.player.rect, lv.world.walls, KeyStep(keys).0, KeyStep(keys).1), lv.world.coins).1
  }

  /** Coins left with the same multiplicities as `Collect` leaves are as many. */
  lemma PickupCount(r: Rect, walls: seq<Rect>, coins: seq<Coin>, dx: int, dy: int, left: seq<Coin>)
    requires forall c :: multiset(left)[c] ==
               (if Overlaps(Move(r, walls, dx, dy), c.rect) then 0 else multiset(coins)[c])
    ensures |left| + Collect(Move(r, walls, dx, dy), coins).1 == |coins|
  {
    var res := Collect(Move(r, walls, dx, dy), coins);
    assert multiset(left) == multiset(res.0);
    assert |left| == |multiset(left)| == |multiset(res.0)| == |res.0|;
  }

  // ---------------------------------------------------------------------------
  // Level end and the run

  datatype Status = Running | Cleared | Dead

  /** The loop test `not level_complete and player.health > 0` and the
      game-over test after it: death wins over reaching the door. */
  function StatusAfterFrame(health: int, reachedDoor: bool): (s: Status)
    ensures s == Dead <==> health <= 0
    ensures s == Cleared <==> health > 0 && reachedDoor
    ensures s == Running <==> health > 0 && !reachedDoor
  {
    if health <= 0 then Dead else if reachedDoor then Cleared else Running
  }

  /** The last half-heart lost to an ordinary enemy ends the run at that
      frame's check: contact takes health 1 to 0. */
  lemma LastHalfHeartIsDeath(w: World, i: nat, now: int, d: EnemyDraws)
    requires i < |w.enemies| && StuckInvariant(w.enemies[i]) && !w.enemies[i].isBoss
    requires w.player.health == 1 && now >= w.enemies[i].activationTime
    requires Overlaps(EnemyAI(w.enemies[i], w.walls, d).rect, w.player.rect)
    ensures UpdateEnemy(w, i, now, d).player.health == 0
    ensures StatusAfterFrame(UpdateEnemy(w, i, now, d).player.health, true) == Dead
  {
  }

  /** The run's state between levels: `level` and `player_upgrades`. */
  datatype Run = Run(level: nat, upgrades: Upgrades)

  /** A fresh run (also what restart after game over gives). */
  function NewRun(): Run {
    Run(1, NO_UPGRADES)
  }

  /** How a level ended: the door reached (with the player as it stood and the
      keys pressed in the shop, if one opens), death with the game-over
      choice, or the window closed. */
  datatype LevelEnd = Completed(player: Player, shopFrames: seq<seq<Key>>) | GameOver(restart: bool) | WindowClosed

  /** The run controller after a level (source lines 703-715); `None` ends the
      program.  The shop opens after even levels only; the player's coins are
      spent there and then lost with the player. */
  function AfterLevel(r: Run, e: LevelEnd): (next: Option<Run>)
    requires r.level >= 1
    ensures next.Some? ==> next.value.level >= 1
    ensures e.GameOver? ==> next == (if e.restart then Some(NewRun()) else None)
    ensures e == WindowClosed ==> next == None
    ensures e.Completed? && r.level % 2 == 1 ==> next == Some(Run(r.level + 1, r.upgrades))
    ensures e.Completed? && next.Some? ==>
              && next.value.level == r.level + 1
              && next.value.upgrades.multishotLevel >= r.upgrades.multishotLevel
              && next.value.upgrades.healthLevel >= r.upgrades.healthLevel
              && (r.upgrades.hasHoming ==> next.value.upgrades.hasHoming)
    ensures e.Completed? && r.level % 2 == 0 && e.player.coins >= 0 ==>
              && (next.Some? <==> exists f :: 0 <= f < |e.shopFrames| && Leave in e.shopFrames[f])
              && (next.Some? ==> SpentOn(next.value.upgrades) - SpentOn(r.upgrades) <= e.player.coins)
  {
    match e
    case GameOver(restart) => if restart then Some(NewRun()) else None
    case WindowClosed => None
    case Completed(p, keys) =>
      if r.level % 2 == 0 then
        var (s, closed) := RunShop(ShopState(p, r.upgrades), keys);
        if closed then Some(Run(r.level + 1, s.upgrades)) else None
      else Some(Run(r.level + 1, r.upgrades))
  }

  /** Coins never carry over: whatever the purse held when a level ended, the
      next level's player starts with none, and with the health the upgrades give. */
  lemma CoinsDoNotCarryOver(r: Run, e: LevelEnd, d: Generated, picks: seq<SpawnPick>,
                            coinDraws: seq<seq<(int, int)>>, now: int)
    requires r.level >= 1 && AfterLevel(r, e).Some?
    requires Placed(d.grid, d.rooms) && |d.rooms| > 0
    requires |picks| == EnemyCount(AfterLevel(r, e).value.level)
    requires forall k :: 0 <= k < |picks| ==> ValidPick(d.rooms, picks[k])
    requires ValidCoinDraws(d.rooms, coinDraws)
    ensures var next := AfterLevel(r, e).value;
            var lv := PopulateLevel(next.level, next.upgrades, d, picks, coinDraws, now);
            && lv.world.player.coins == 0
            && lv.world.player.health == BASE_HEALTH + next.upgrades.healthLevel
            && |lv.world.enemies| == next.level + 2
  {
  }
}

=== FILE: geometry.dfy ===
/** Screen and map constants, pixel rectangles and the overlap test shared by
    every sprite of the game (pygame's `Rect` and `colliderect`). */
module Geometry {

  const TILE_SIZE: int := 32
  const MAP_WIDTH: int := 25
  const MAP_HEIGHT: int := 18
  /** Height of the HUD band above the map; every map pixel is shifted down by it. */
  const HUD_HEIGHT: int := 40
  const SCREEN_WIDTH: int := MAP_WIDTH * TILE_SIZE
  const SCREEN_HEIGHT: int := MAP_HEIGHT * TILE_SIZE + HUD_HEIGHT

  datatype Point = Point(x: int, y: int)

  /** An axis-aligned pixel rectangle with its top-left corner at (x, y). */
  datatype Rect = Rect(x: int, y: int, w: nat, h: nat) {

    function Right(): int { x + w }

    function Bottom(): int { y + h }

    /** pygame's `rect.center`: the midpoint rounded down. */
    function Center(): Point { Point(x + w / 2, y + h / 2) }

    function Shift(dx: int, dy: int): Rect { Rect(x + dx, y + dy, w, h) }
  }

  /** `surface.get_rect(center=c)`: a w-by-h rectangle whose centre is c. */
  function RectAround(c: Point, w: nat, h: nat): (r: Rect)
    ensures r.Center() == c && r.w == w && r.h == h
  {
    Rect(c.x - w / 2, c.y - h / 2, w, h)
  }

  /** Strict overlap on both axes, as `colliderect` does for rectangles of positive size
      and as `Room.intersect` does in tile units. */
  predicate Overlaps(a: Rect, b: Rect) {
    a.x < b.x + b.w && a.x + a.w > b.x && a.y < b.y + b.h && a.y + a.h > b.y
  }

  lemma OverlapsSymmetric(a: Rect, b: Rect)
    ensures Overlaps(a, b) <==> Overlaps(b, a)
  {
  }

  /** `spritecollideany` against a group: does r overlap some member of rs? */
  predicate HitsAny(r: Rect, rs: seq<Rect>) {
    exists i :: 0 <= i < |rs| && Overlaps(r, rs[i])
  }

  /** The pixel square of map tile (x, y): (32x, 32y + 40), 32 pixels a side. */
  function TileRect(x: int, y: int): Rect {
    Rect(x * TILE_SIZE, y * TILE_SIZE + HUD_HEIGHT, TILE_SIZE, TILE_SIZE)
  }

  /** The pixel centre of tile (x, y), used for spawn positions. */
  function TileCentre(x: int, y: int): Point {
    Point(x * TILE_SIZE + TILE_SIZE / 2, y * TILE_SIZE + TILE_SIZE / 2 + HUD_HEIGHT)
  }

  /** The tile a pixel lies on (floor division). */
  function PixelTile(p: Point): (int, int) {
    ((p.x) / TILE_SIZE, (p.y - HUD_HEIGHT) / TILE_SIZE)
  }

  /** A spawn position names its tile again: pixel centres and tiles round-trip. */
  lemma TileCentreRoundTrip(x: int, y: int)
    ensures PixelTile(TileCentre(x, y)) == (x, y)
    ensures TileRect(x, y).x < TileCentre(x, y).x < TileRect(x, y).Right()
    ensures TileRect(x, y).y < TileCentre(x, y).y < TileRect(x, y).Bottom()
  {
    var c := TileCentre(x, y);
    assert c.x == x * TILE_SIZE + 16;
    assert (x * TILE_SIZE + 16) / TILE_SIZE == x;
    assert c.y - HUD_HEIGHT == y * TILE_SIZE + 16;
    assert (y * TILE_SIZE + 16) / TILE_SIZE == y;
  }

  /** A square of side at most 32 centred on a tile centre overlaps that tile's
      square and no other tile square. */
  lemma CentredBoxMeetsOnlyItsTile(x: int, y: int, side: nat, i: int, j: int)
    requires 0 < side <= TILE_SIZE && side % 2 == 0
    ensures Overlaps(RectAround(TileCentre(x, y), side, side), TileRect(i, j)) <==> i == x && j == y
  {
    var b := RectAround(TileCentre(x, y), side, side);
    assert b.x == x * TILE_SIZE + 16 - side / 2;
    assert b.y == y * TILE_SIZE + 16 - side / 2 + HUD_HEIGHT;
    if i < x {
      assert i * TILE_SIZE + TILE_SIZE <= x * TILE_SIZE;
    }
    if i > x {
      assert i * TILE_SIZE >= x * TILE_SIZE + TILE_SIZE;
    }
    if j < y {
      assert j * TILE_SIZE + TILE_SIZE <= y * TILE_SIZE;
    }
    if j > y {
      assert j * TILE_SIZE >= y * TILE_SIZE + TILE_SIZE;
    }
  }
}

=== FILE: player_actions.dfy ===
/** The player's own behaviour: axis-separated movement against the walls,
    clamping to the viewport, coin pickup, rate-limited (multi)shots and the
    health upgrade. */
module PlayerActions {
  import opened Geometry
  import opened Entities

  // ---------------------------------------------------------------------------
  // Movement

  /** One axis of `Player.move`: step, and step back if the box now overlaps a wall. */
  function StepAxis(r: Rect, walls: seq<Rect>, dx: int, dy: int): (r': Rect)
    ensures r' == r || (r' == r.Shift(dx, dy) && !HitsAny(r', walls))
    ensures !HitsAny(r.Shift(dx, dy), walls) ==> r' == r.Shift(dx, dy)
  {
    if dx == 0 && dy == 0 then r
    else
      var moved := r.Shift(dx, dy);
      if HitsAny(moved, walls) then r else moved
  }

  /** `Player.move(dx, dy)`: x first, then y, each reverted on its own. */
  function Move(r: Rect, walls: seq<Rect>, dx: int, dy: int): (r': Rect)
    ensures r'.w == r.w && r'.h == r.h
    ensures r'.x == r.x || r'.x == r.x + dx
    ensures r'.y == r.y || r'.y == r.y + dy
    ensures !HitsAny(r, walls) ==> !HitsAny(r', walls)
    // a blocked horizontal step is undone, a free one is taken
    ensures dx != 0 && HitsAny(r.Shift(dx, 0), walls) ==> r'.x == r.x
    ensures !HitsAny(r.Shift(dx, 0), walls) ==> r'.x == r.x + dx
    // the vertical step is judged from wherever the horizontal one left the box
    ensures dy != 0 && HitsAny(r.Shift(r'.x - r.x, dy), walls) ==> r'.y == r.y
    ensures !HitsAny(r.Shift(r'.x - r.x, dy), walls) ==> r'.y == r.y + dy
  {
    var r1 := StepAxis(r, walls, dx, 0);
    StepAxis(r1, walls, 0, dy)
  }

  /** Sliding along a wall: a blocked horizontal step leaves the vertical one free. */
  lemma SlideAlongWall(r: Rect, walls: seq<Rect>, dx: int, dy: int)
    requires dx != 0 && HitsAny(r.Shift(dx, 0), walls)
    requires !HitsAny(r.Shift(0, dy), walls)
    ensures Move(r, walls, dx, dy) == r.Shift(0, dy)
  {
  }

  /** The playable viewport: the full width, below the 40-pixel HUD band. */
  predicate InViewport(r: Rect) {
    0 <= r.x && r.Right() <= SCREEN_WIDTH && HUD_HEIGHT <= r.y && r.Bottom() <= SCREEN_HEIGHT
  }

  /** The four boundary checks of `Player.update`, applied in order. */
  function Clamp(r: Rect): (c: Rect)
    ensures c.w == r.w && c.h == r.h
    ensures r.w <= SCREEN_WIDTH && r.h <= SCREEN_HEIGHT - HUD_HEIGHT ==> InViewport(c)
    ensures InViewport(r) ==> c == r
    ensures 0 <= r.x && r.Right() <= SCREEN_WIDTH ==> c.x == r.x
    ensures HUD_HEIGHT <= r.y && r.Bottom() <= SCREEN_HEIGHT ==> c.y == r.y
  {
    var x1 := if r.x < 0 then 0 else r.x;
    var x2 := if x1 + r.w > SCREEN_WIDTH then SCREEN_WIDTH - r.w else x1;
    var y1 := if r.y < HUD_HEIGHT then HUD_HEIGHT else r.y;
    var y2 := if y1 + r.h > SCREEN_HEIGHT then SCREEN_HEIGHT - r.h else y1;
    Rect(x2, y2, r.w, r.h)
  }

  lemma ClampIdempotent(r: Rect)
    requires r.w <= SCREEN_WIDTH && r.h <= SCREEN_HEIGHT - HUD_HEIGHT
    ensures Clamp(Clamp(r)) == Clamp(r)
  {
  }

  // ---------------------------------------------------------------------------
  // Pickup

  /** `spritecollide(player, coins, True)`: the coins the box overlaps are
      removed and counted; the others stay, in order. */
  function Collect(r: Rect, coins: seq<Coin>): (res: (seq<Coin>, nat))
    ensures res.1 + |res.0| == |coins|
    ensures forall k :: 0 <= k < |res.0| ==> res.0[k] in coins && !Overlaps(r, res.0[k].rect)
    ensures forall k :: 0 <= k < |coins| && !Overlaps(r, coins[k].rect) ==> coins[k] in res.0
    ensures (forall k :: 0 <= k < |coins| ==> !Overlaps(r, coins[k].rect)) ==> res == (coins, 0)
    // the kept coins are the input minus exactly the overlapped ones
    ensures forall c :: multiset(res.0)[c] == (if Overlaps(r, c.rect) then 0 else multiset(coins)[c])
  {
    if |coins| == 0 then ([], 0)
    else
      var (rest, n) := Collect(r, coins[1..]);
      assert forall k :: 1 <= k < |coins| ==> coins[k] == coins[1..][k - 1];
      assert coins == [coins[0]] + coins[1..];
      assert multiset(coins) == multiset([coins[0]]) + multiset(coins[1..]);
      if Overlaps(r, coins[0].rect) then (rest, n + 1)
      else
        assert multiset([coins[0]] + rest) == multiset([coins[0]]) + multiset(rest);
        ([coins[0]] + rest, n)
  }

  /** So the pickup count is the number of overlapped coins, counted with
      repetition: the purse grows by exactly the coins that disappear. */
  lemma CollectCountsOverlapped(r: Rect, coins: seq<Coin>, c: Coin)
    requires Overlaps(r, c.rect) && c in coins
    ensures Collect(r, coins).1 > 0 && c !in Collect(r, coins).0
  {
    var res := Collect(r, coins);
    var kept, all := multiset(res.0), multiset(coins);
    assert kept[c] == 0 && all[c] > 0;
    assert kept <= all;
    var gone := all - kept;
    assert all == kept + gone;
    assert gone == (gone - multiset{c}) + multiset{c};
    assert |all| == |res.0| + |gone| && |gone| >= 1;
  }

  /** The movement keys held down this frame (A, D, W, S). */
  datatype Held = Held(left: bool, right: bool, up: bool, down: bool)

  /** `int(v * 0.7071)`: Python's `int` truncates toward zero, unlike Dafny's
      Euclidean division, so the sign is handled explicitly. */
  function ScaleDiagonal(v: int): int {
    if v >= 0 then v * 7071 / 10000 else -((-v) * 7071 / 10000)
  }

  /** The pixel step `Player.update` hands to `move`: D beats A and S beats W,
      and a diagonal step is scaled by 0.7071 and truncated on each axis. */
  function KeyStep(k: Held): (step: (int, int))
    ensures !k.left && !k.right ==> step.0 == 0
    ensures !k.up && !k.down ==> step.1 == 0
    ensures step.0 != 0 && step.1 != 0 ==>
              (step.0 == 2 || step.0 == -2) && (step.1 == 2 || step.1 == -2)
    ensures step.0 == 0 || step.1 == 0 ==>
              (step.0 == 0 || step.0 == PLAYER_SPEED || step.0 == -PLAYER_SPEED)
              && (step.1 == 0 || step.1 == PLAYER_SPEED || step.1 == -PLAYER_SPEED)
    ensures k.right ==> step.0 > 0
    ensures k.left && !k.right ==> step.0 < 0
    ensures k.down ==> step.1 > 0
    ensures k.up && !k.down ==> step.1 < 0
    // a diagonal step is never longer than a straight one
    ensures step.0 * step.0 + step.1 * step.1 <= PLAYER_SPEED * PLAYER_SPEED
  {
    var dx := if k.right then PLAYER_SPEED else if k.left then -PLAYER_SPEED else 0;
    var dy := if k.down then PLAYER_SPEED else if k.up then -PLAYER_SPEED else 0;
    if dx != 0 && dy != 0 then (ScaleDiagonal(dx), ScaleDiagonal(dy)) else (dx, dy)
  }

  /** `Player.update` after the keys are read: move by the integer step,
      pick up coins, then clamp into the viewport. */
  function UpdatePlayer(p: Player, walls: seq<Rect>, coins: seq<Coin>, dx: int, dy: int): (res: (Player, seq<Coin>))
    requires p.rect.w == PLAYER_SIDE && p.rect.h == PLAYER_SIDE
    ensures res.0.coins == p.coins + (|coins| - |res.1|)
    ensures |res.1| <= |coins|
    ensures InViewport(res.0.rect)
    ensures res.0.rect.w == PLAYER_SIDE && res.0.rect.h == PLAYER_SIDE
    ensures res.0 == p.(rect := res.0.rect, coins := res.0.coins)
    // the box is the wall-checked move, clamped into the viewport
    ensures res.0.rect == Clamp(Move(p.rect, walls, dx, dy))
    // coins are picked up where the move left the box, before clamping
    ensures forall c :: multiset(res.1)[c] ==
              (if Overlaps(Move(p.rect, walls, dx, dy), c.rect) then 0 else multiset(coins)[c])
  {
    var moved := Move(p.rect, walls, dx, dy);
    var (left, n) := Collect(moved, coins);
    (p.(rect := Clamp(moved), coins := p.coins + n), left)
  }

  // ---------------------------------------------------------------------------
  // Shooting

  const ANGLE_STEP: int := 10

  /** The angle offsets of one multishot volley, in creation order:
      0, then +10i and -10i for i = 1..n. */
  function FanAngles(n: nat): (angles: seq<int>)
    ensures |angles| == 1 + 2 * n
    ensures angles[0] == 0
    ensures forall i :: 1 <= i <= n ==> angles[2 * i - 1] == ANGLE_STEP * i && angles[2 * i] == -ANGLE_STEP * i
  {
    if n == 0 then [0] else FanAngles(n - 1) + [ANGLE_STEP * n, -ANGLE_STEP * n]
  }

  /** The volley as a set: every multiple of 10 from -10n to 10n once. */
  lemma {:induction false} FanAnglesAreSymmetric(n: nat)
    ensures forall a :: a in FanAngles(n) <==> a % ANGLE_STEP == 0 && -ANGLE_STEP * n <= a <= ANGLE_STEP * n
    ensures forall i, j :: 0 <= i < j < |FanAngles(n)| ==> FanAngles(n)[i] != FanAngles(n)[j]
  {
    if n > 0 {
      FanAnglesAreSymmetric(n - 1);
      var prev := FanAngles(n - 1);
      var s := FanAngles(n);
      assert s == prev + [ANGLE_STEP * n, -ANGLE_STEP * n];
      forall a | a % ANGLE_STEP == 0 && -ANGLE_STEP * n <= a <= ANGLE_STEP * n
        ensures a in s
      {
        if a == ANGLE_STEP * n {
          assert s[|s| - 2] == a;
        } else if a == -ANGLE_STEP * n {
          assert s[|s| - 1] == a;
        } else {
          assert a in prev;
        }
      }
      forall a | a in s
        ensures a % ANGLE_STEP == 0 && -ANGLE_STEP * n <= a <= ANGLE_STEP * n
      {
        if a !in prev {
          assert a == ANGLE_STEP * n || a == -ANGLE_STEP * n;
        }
      }
      forall i, j | 0 <= i < j < |s|
        ensures s[i] != s[j]
      {
        if j < |prev| {
          assert s[i] == prev[i] && s[j] == prev[j];
        } else if i < |prev| {
          assert s[i] in prev;
          assert -ANGLE_STEP * (n - 1) <= s[i] <= ANGLE_STEP * (n - 1);
        }
      }
    }
  }

  datatype Volley = Volley(player: Player, bullets: seq<Bullet>)

  /** `Player.shoot(direction)` at time `now`.  `aim(d, a)` is the integer step
      of direction d rotated by a degrees at speed 10 (a floating-point
      computation left abstract); the unrotated bullet's step is exact. */
  function Shoot(p: Player, dir: Point, now: int, aim: (Point, int) -> Point): (v: Volley)
    ensures dir == Point(0, 0) ==> v == Volley(p, [])
    ensures now - p.lastShot < SHOT_DELAY ==> v == Volley(p, [])
    ensures dir != Point(0, 0) && now - p.lastShot >= SHOT_DELAY ==>
              && v.player == p.(lastShot := now)
              && |v.bullets| == 1 + 2 * p.multishotLevel
              && (forall k :: 0 <= k < |v.bullets| ==> v.bullets[k].angle == FanAngles(p.multishotLevel)[k])
              && (forall k :: 0 <= k < |v.bullets| ==>
                    v.bullets[k].dir == dir && v.bullets[k].homing == p.hasHoming
                    && v.bullets[k].rect.Center() == p.rect.Center())
              && v.bullets[0].step == Point(10 * dir.x, 10 * dir.y)
  {
    if dir == Point(0, 0) then Volley(p, [])
    else if now - p.lastShot < SHOT_DELAY then Volley(p, [])
    else
      var box := RectAround(p.rect.Center(), BULLET_SIDE, BULLET_SIDE);
      var angles := FanAngles(p.multishotLevel);
      var bullets := seq(|angles|, k requires 0 <= k < |angles| =>
        Bullet(box, dir, angles[k], p.hasHoming,
               if angles[k] == 0 then Point(10 * dir.x, 10 * dir.y) else aim(dir, angles[k])));
      assert forall k :: 0 <= k < |bullets| ==> bullets[k].rect == box;
      Volley(p.(lastShot := now), bullets)
  }

  /** Two volleys that both fire are at least 300 ms apart. */
  lemma ShotsRateLimited(p: Player, d1: Point, t1: int, d2: Point, t2: int, aim: (Point, int) -> Point)
    requires |Shoot(p, d1, t1, aim).bullets| > 0
    requires |Shoot(Shoot(p, d1, t1, aim).player, d2, t2, aim).bullets| > 0
    ensures t2 - t1 >= SHOT_DELAY
  {
  }

  // ---------------------------------------------------------------------------
  // Health upgrade

  /** `Player.add_health`: one more half-heart of maximum health, and of
      current health too when the player was within the old maximum. */
  function AddHealth(p: Player): (p': Player)
    ensures p'.healthBonus == p.healthBonus + 1
    ensures p'.maxHealth == BASE_HEALTH + p'.healthBonus
    ensures p.maxHealth == BASE_HEALTH + p.healthBonus && p.health <= p.maxHealth ==>
              p'.maxHealth == p.maxHealth + 1 && p'.health == p.health + 1 && p'.health <= p'.maxHealth
    ensures p' == p.(healthBonus := p'.healthBonus, maxHealth := p'.maxHealth, health := p'.health)
  {
    var bonus := p.healthBonus + 1;
    var maxHealth := BASE_HEALTH + bonus;
    p.(healthBonus := bonus, maxHealth := maxHealth,
       health := if p.health + 1 <= maxHealth then p.health + 1 else maxHealth)
  }
}

=== FILE: shop.dfy ===
/** The purchase logic of the shop screen: three upgrades paid for from the
    player's coins, each applied both to the run's upgrades and to the player. */
module Shop {
  import opened Entities
  import opened PlayerActions

  const HOMING_COST: int := 30
  const HEALTH_COST: int := 10

  /** Multishot level L+1 costs 5 + 5L. */
  function MultishotCost(level: nat): int {
    5 + 5 * level
  }

  /** The keys the shop reacts to; any other key does nothing. */
  datatype Key = BuyMultishot | BuyHoming | BuyHealth | Leave | OtherKey

  datatype ShopState = ShopState(player: Player, upgrades: Upgrades)

  /** The cost of the purchase a key asks for, given the current upgrades. */
  function PriceOf(key: Key, u: Upgrades): int {
    match key
    case BuyMultishot => MultishotCost(u.multishotLevel)
    case BuyHoming => HOMING_COST
    case BuyHealth => HEALTH_COST
    case _ => 0
  }

  /** Whether a key buys something: enough coins, and homing not yet owned. */
  predicate Affordable(s: ShopState, key: Key) {
    match key
    case BuyMultishot => s.player.coins >= MultishotCost(s.upgrades.multishotLevel)
    case BuyHoming => s.player.coins >= HOMING_COST && !s.upgrades.hasHoming
    case BuyHealth => s.player.coins >= HEALTH_COST
    case _ => false
  }

  /** One key press in the shop (source lines 460-477). */
  function Press(s: ShopState, key: Key): (s': ShopState)
    // a refused request changes nothing
    ensures !Affordable(s, key) ==> s' == s
    // an accepted one is paid for exactly, never driving the purse negative
    ensures Affordable(s, key) ==>
              && s'.player.coins == s.player.coins - PriceOf(key, s.upgrades)
              && s'.player.coins >= 0
              && s'.player.lastShot == s.player.lastShot && s'.player.rect == s.player.rect
    // and raises exactly the one upgrade asked for, by one
    ensures Affordable(s, key) && key == BuyMultishot ==>
              && s'.upgrades == s.upgrades.(multishotLevel := s.upgrades.multishotLevel + 1)
              && s'.player.multishotLevel == s.player.multishotLevel + 1
    ensures Affordable(s, key) && key == BuyHoming ==>
              s'.upgrades == s.upgrades.(hasHoming := true) && s'.player.hasHoming
    ensures Affordable(s, key) && key == BuyHealth ==>
              && s'.upgrades == s.upgrades.(healthLevel := s.upgrades.healthLevel + 1)
              && s'.player.healthBonus == s.player.healthBonus + 1
    ensures Consistent(s.player, s.upgrades) ==> Consistent(s'.player, s'.upgrades)
  {
    var p := s.player;
    var u := s.upgrades;
    match key
    case BuyMultishot =>
      var cost := MultishotCost(u.multishotLevel);
      if p.coins >= cost then
        ShopState(p.(multishotLevel := p.multishotLevel + 1, coins := p.coins - cost),
                  u.(multishotLevel := u.multishotLevel + 1))
      else s
    case BuyHoming =>
      if p.coins >= HOMING_COST && !u.hasHoming then
        ShopState(p.(hasHoming := true, coins := p.coins - HOMING_COST), u.(hasHoming := true))
      else s
    case BuyHealth =>
      if p.coins >= HEALTH_COST then
        var p' := AddHealth(p);
        ShopState(p'.(coins := p'.coins - HEALTH_COST), u.(healthLevel := u.healthLevel + 1))
      else s
    case _ => s
  }

  /** The coins the current upgrades have cost since the start of the run:
      5 + 10 + ... for multishot, 30 for homing, 10 per health level. */
  function SpentOn(u: Upgrades): int {
    MultishotSpent(u.multishotLevel) + (if u.hasHoming then HOMING_COST else 0) + HEALTH_COST * u.healthLevel
  }

  function MultishotSpent(level: nat): int {
    if level == 0 then 0 else MultishotSpent(level - 1) + MultishotCost(level - 1)
  }

  /** The multishot levels bought so far have cost 5 + 10 + ... + 5L = 5L(L+1)/2. */
  lemma {:induction false} MultishotSpentClosedForm(level: nat)
    ensures 2 * MultishotSpent(level) == 5 * level * (level + 1)
  {
    if level > 0 {
      MultishotSpentClosedForm(level - 1);
    }
  }

  /** Coins are only ever exchanged for upgrades at their price: the purse plus
      the value of the upgrades is the same after any key press. */
  lemma PressConservesValue(s: ShopState, key: Key)
    ensures Press(s, key).player.coins + SpentOn(Press(s, key).upgrades) == s.player.coins + SpentOn(s.upgrades)
  {
  }

  /** Homing can be bought once per run: pressing for it again changes nothing. */
  lemma HomingBoughtOnce(s: ShopState)
    ensures Press(Press(s, BuyHoming), BuyHoming).upgrades == Press(s, BuyHoming).upgrades
    ensures Press(Press(s, BuyHoming), BuyHoming).player.coins == Press(s, BuyHoming).player.coins
  {
  }

  /** One frame's key events, all handled before the loop looks at whether
      Enter was among them. */
  function PressAll(s: ShopState, keys: seq<Key>): (s': ShopState)
    ensures s'.player.coins + SpentOn(s'.upgrades) == s.player.coins + SpentOn(s.upgrades)
    ensures s.player.coins >= 0 ==> s'.player.coins >= 0
    ensures s'.player.coins <= s.player.coins
    ensures s'.upgrades.multishotLevel >= s.upgrades.multishotLevel
    ensures s'.upgrades.healthLevel >= s.upgrades.healthLevel
    ensures s.upgrades.hasHoming ==> s'.upgrades.hasHoming
    ensures Consistent(s.player, s.upgrades) ==> Consistent(s'.player, s'.upgrades)
    ensures (forall k :: 0 <= k < |keys| ==> keys[k] == Leave || keys[k] == OtherKey) ==> s' == s
    decreases |keys|
  {
    if |keys| == 0 then s
    else
      PressConservesValue(s, keys[0]);
      PressAll(Press(s, keys[0]), keys[1..])
  }

  /** A shop visit (source lines 451-481): frame after frame of key events
      until a frame containing Enter has been handled in full.  The result
      says whether the shop closed; keys left over with it still open stand
      for the window being closed. */
  function RunShop(s: ShopState, frames: seq<seq<Key>>): (res: (ShopState, bool))
    ensures res.0.player.coins + SpentOn(res.0.upgrades) == s.player.coins + SpentOn(s.upgrades)
    ensures s.player.coins >= 0 ==> res.0.player.coins >= 0
    ensures res.0.player.coins <= s.player.coins
    ensures res.0.upgrades.multishotLevel >= s.upgrades.multishotLevel
    ensures res.0.upgrades.healthLevel >= s.upgrades.healthLevel
    ensures s.upgrades.hasHoming ==> res.0.upgrades.hasHoming
    ensures Consistent(s.player, s.upgrades) ==> Consistent(res.0.player, res.0.upgrades)
    ensures res.1 <==> exists f :: 0 <= f < |frames| && Leave in frames[f]
    decreases |frames|
  {
    if |frames| == 0 then (s, false)
    else
      var s1 := PressAll(s, frames[0]);
      if Leave in frames[0] then (s1, true)
      else
        var res := RunShop(s1, frames[1..]);
        assert forall f :: 1 <= f < |frames| ==> frames[f] == frames[1..][f - 1];
        res
  }

  /** Keys pressed after Enter in the same frame still buy: Enter followed by
      a health purchase leaves the shop one health level richer. */
  lemma KeysAfterEnterStillCount(s: ShopState)
    requires s.player.coins >= HEALTH_COST
    ensures RunShop(s, [[Leave, BuyHealth]]).1
    ensures RunShop(s, [[Leave, BuyHealth]]).0.upgrades.healthLevel == s.upgrades.healthLevel + 1
    ensures RunShop(s, [[Leave, BuyHealth]]).0.player.coins == s.player.coins - HEALTH_COST
  {
    assert [Leave, BuyHealth][1..] == [BuyHealth];
  }
}

=== FILE: spawn.dfy ===
/** Where enemies and coins appear when a level is populated: a random room,
    a random interior tile of it, and that tile's pixel centre. */
module Spawn {
  import opened Geometry
  import opened Dungeon
  import opened Entities

  /** One enemy's draws: `random.choice(rooms)` as an index, then the tile. */
  datatype SpawnPick = SpawnPick(room: int, x: int, y: int)

  predicate ValidPick(rooms: seq<Room>, p: SpawnPick) {
    0 <= p.room < |rooms| && rooms[p.room].InInterior(p.x, p.y)
  }

  /** The boss rule: the last enemy of the batch, and only if its room is the
      last room (the source compares rooms by identity, i.e. by index). */
  predicate IsBossSpawn(num: nat, rooms: seq<Room>, k: int, p: SpawnPick) {
    k == num - 1 && p.room == |rooms| - 1
  }

  /** `spawn_enemies(num, rooms)` with its draws and the clock passed in. */
  function SpawnEnemies(num: nat, rooms: seq<Room>, picks: seq<SpawnPick>, now: int): (es: seq<Enemy>)
    requires |rooms| > 0 && |picks| == num
    requires forall k :: 0 <= k < num ==> ValidPick(rooms, picks[k])
    ensures |es| == num
    ensures forall k :: 0 <= k < num ==>
              && es[k].rect.Center() == TileCentre(picks[k].x, picks[k].y)
              && ValidPick(rooms, SpawnPick(picks[k].room, PixelTile(es[k].rect.Center()).0,
                                                          PixelTile(es[k].rect.Center()).1))
              && (es[k].isBoss <==> IsBossSpawn(num, rooms, k, picks[k]))
              && es[k].health == (if es[k].isBoss then BOSS_HEALTH else ENEMY_HEALTH)
              && es[k].activationTime == now + ACTIVATION_DELAY
    ensures forall k :: 0 <= k < num && es[k].isBoss ==> k == num - 1 && picks[k].room == |rooms| - 1
  {
    TileCentresRoundTrip();
    seq(num, k requires 0 <= k < num =>
      var p := picks[k];
      NewEnemy(TileCentre(p.x, p.y), IsBossSpawn(num, rooms, k, p), now))
  }

  lemma TileCentresRoundTrip()
    ensures forall x, y :: PixelTile(TileCentre(x, y)) == (x, y)
  {
    forall x, y
      ensures PixelTile(TileCentre(x, y)) == (x, y)
    {
      TileCentreRoundTrip(x, y);
    }
  }

  /** At most one boss per level, and none unless the final draw chose the
      last room; with a single room, the last enemy always is the boss. */
  lemma AtMostOneBoss(num: nat, rooms: seq<Room>, picks: seq<SpawnPick>, now: int)
    requires |rooms| > 0 && |picks| == num
    requires forall k :: 0 <= k < num ==> ValidPick(rooms, picks[k])
    ensures forall j, k :: 0 <= j < k < num ==>
              !(SpawnEnemies(num, rooms, picks, now)[j].isBoss && SpawnEnemies(num, rooms, picks, now)[k].isBoss)
    ensures num > 0 && picks[num - 1].room != |rooms| - 1 ==>
              forall k :: 0 <= k < num ==> !SpawnEnemies(num, rooms, picks, now)[k].isBoss
    ensures num > 0 && |rooms| == 1 ==> SpawnEnemies(num, rooms, picks, now)[num - 1].isBoss
  {
  }

  /** Every spawn tile lies inside a room of the generated map, so it is floor,
      and its pixel centre names the tile again. */
  lemma SpawnsOnFloor(d: Generated, picks: seq<SpawnPick>, k: int)
    requires Placed(d.grid, d.rooms)
    requires 0 <= k < |picks| && ValidPick(d.rooms, picks[k])
    ensures InMap(picks[k].x, picks[k].y) && d.grid[picks[k].x][picks[k].y] == Floor
    ensures PixelTile(TileCentre(picks[k].x, picks[k].y)) == (picks[k].x, picks[k].y)
  {
    var p := picks[k];
    InteriorNonEmpty(d.rooms[p.room]);
    assert RoomFloor(d.grid, d.rooms[p.room]);
    TileCentreRoundTrip(p.x, p.y);
  }

  // ---------------------------------------------------------------------------
  // Coins

  /** The tiles drawn for room i's coins are valid when, for a room other than
      the first and last, there are one to three of them, all interior. */
  predicate ValidCoinDraws(rooms: seq<Room>, draws: seq<seq<(int, int)>>) {
    && |draws| == |rooms|
    && forall i :: 0 < i < |rooms| - 1 ==>
         && 1 <= |draws[i]| <= 3
         && forall k :: 0 <= k < |draws[i]| ==> rooms[i].InInterior(draws[i][k].0, draws[i][k].1)
  }

  /** A coin centre that sits on an interior tile of a room other than the
      first and the last. */
  ghost predicate InMiddleRoom(rooms: seq<Room>, c: Point) {
    exists i, x, y :: 0 < i < |rooms| - 1 && rooms[i].InInterior(x, y) && c == TileCentre(x, y)
  }

  /** Whether a coin stands on a tile of room r. */
  predicate CoinInRoom(c: Coin, r: Room) {
    var (x, y) := PixelTile(c.rect.Center());
    r.Contains(x, y)
  }

  /** How many of the coins stand on tiles of room r. */
  function CoinsIn(cs: seq<Coin>, r: Room): nat {
    if |cs| == 0 then 0 else (if CoinInRoom(cs[0], r) then 1 else 0) + CoinsIn(cs[1..], r)
  }

  /** The coins room j receives from the loop started at room i: the drawn
      ones for a middle room the loop reaches, none otherwise. */
  function Share(rooms: seq<Room>, draws: seq<seq<(int, int)>>, i: int, j: int): nat
    requires ValidCoinDraws(rooms, draws) && 0 <= j < |rooms|
  {
    if i <= j && 0 < j < |rooms| - 1 then |draws[j]| else 0
  }

  /** The coin loop of a level, from room i on. */
  function CoinsFrom(rooms: seq<Room>, draws: seq<seq<(int, int)>>, i: nat): (cs: seq<Coin>)
    requires ValidCoinDraws(rooms, draws) && i <= |rooms|
    ensures forall k :: 0 <= k < |cs| ==> InMiddleRoom(rooms, cs[k].rect.Center())
    ensures forall k :: 0 <= k < |cs| ==> cs[k].rect.w == COIN_SIDE && cs[k].rect.h == COIN_SIDE
    ensures |cs| <= 3 * (|rooms| - i)
    ensures 0 < i < |rooms| - 1 ==> |cs| >= |rooms| - 1 - i
    // among disjoint rooms, each room gets exactly the coins drawn for it
    ensures PairwiseDisjoint(rooms) ==>
              forall j :: 0 <= j < |rooms| ==> CoinsIn(cs, rooms[j]) == Share(rooms, draws, i, j)
    decreases |rooms| - i
  {
    if i >= |rooms| then []
    else
      var here := if 0 < i < |rooms| - 1 then CoinsAt(rooms, draws, i) else [];
      var rest := CoinsFrom(rooms, draws, i + 1);
      if PairwiseDisjoint(rooms) then
        CountStep(rooms, draws, i, here, rest);
        here + rest
      else
        here + rest
  }

  /** One step of the coin loop, counted room by room. */
  lemma CountStep(rooms: seq<Room>, draws: seq<seq<(int, int)>>, i: nat, here: seq<Coin>, rest: seq<Coin>)
    requires ValidCoinDraws(rooms, draws) && i < |rooms| && PairwiseDisjoint(rooms)
    requires here == (if 0 < i < |rooms| - 1 then CoinsAt(rooms, draws, i) else [])
    requires forall j :: 0 <= j < |rooms| ==> CoinsIn(rest, rooms[j]) == Share(rooms, draws, i + 1, j)
    ensures forall j :: 0 <= j < |rooms| ==> CoinsIn(here + rest, rooms[j]) == Share(rooms, draws, i, j)
  {
    forall j | 0 <= j < |rooms|
      ensures CoinsIn(here + rest, rooms[j]) == Share(rooms, draws, i, j)
    {
      CoinsInAppend(here, rest, rooms[j]);
      if 0 < i < |rooms| - 1 {
        if j == i {
          CoinsInAll(here, rooms[j]);
        } else {
          forall k | 0 <= k < |here|
            ensures !CoinInRoom(here[k], rooms[j])
          {
            var (x, y) := (draws[i][k].0, draws[i][k].1);
            TileCentreRoundTrip(x, y);
            if rooms[j].Contains(x, y) {
              if i < j {
                assert rooms[j].Intersects(rooms[i]);
              } else {
                assert rooms[i].Intersects(rooms[j]);
              }
            }
          }
          CoinsInNone(here, rooms[j]);
        }
      }
    }
  }

  lemma {:induction false} CoinsInAppend(a: seq<Coin>, b: seq<Coin>, r: Room)
    ensures CoinsIn(a + b, r) == CoinsIn(a, r) + CoinsIn(b, r)
  {
    if |a| > 0 {
      assert (a + b)[1..] == a[1..] + b;
      CoinsInAppend(a[1..], b, r);
    } else {
      assert a + b == b;
    }
  }

  lemma {:induction false} CoinsInAll(cs: seq<Coin>, r: Room)
    requires forall k :: 0 <= k < |cs| ==> CoinInRoom(cs[k], r)
    ensures CoinsIn(cs, r) == |cs|
  {
    if |cs| > 0 {
      CoinsInAll(cs[1..], r);
    }
  }

  lemma {:induction false} CoinsInNone(cs: seq<Coin>, r: Room)
    requires forall k :: 0 <= k < |cs| ==> !CoinInRoom(cs[k], r)
    ensures CoinsIn(cs, r) == 0
  {
    if |cs| > 0 {
      CoinsInNone(cs[1..], r);
    }
  }

  /** One middle room's coins: one for each drawn interior tile, centred on it. */
  function CoinsAt(rooms: seq<Room>, draws: seq<seq<(int, int)>>, i: nat): (cs: seq<Coin>)
    requires ValidCoinDraws(rooms, draws) && 0 < i < |rooms| - 1
    ensures |cs| == |draws[i]| && 1 <= |cs| <= 3
    ensures forall k :: 0 <= k < |cs| ==>
              && rooms[i].InInterior(draws[i][k].0, draws[i][k].1)
              && cs[k].rect.Center() == TileCentre(draws[i][k].0, draws[i][k].1)
              && CoinInRoom(cs[k], rooms[i])
    ensures forall k :: 0 <= k < |cs| ==> InMiddleRoom(rooms, cs[k].rect.Center())
    ensures forall k :: 0 <= k < |cs| ==> cs[k].rect.w == COIN_SIDE && cs[k].rect.h == COIN_SIDE
  {
    var ts := draws[i];
    var cs := seq(|ts|, k requires 0 <= k < |ts| => NewCoin(TileCentre(ts[k].0, ts[k].1)));
    TileCentresRoundTrip();
    assert forall k :: 0 <= k < |cs| ==>
             rooms[i].InInterior(ts[k].0, ts[k].1) && cs[k].rect.Center() == TileCentre(ts[k].0, ts[k].1);
    cs
  }

  /** Coins go only to rooms other than the first and the last, one to three
      per such room: none at all in a level of one or two rooms. */
  function SpawnCoins(rooms: seq<Room>, draws: seq<seq<(int, int)>>): (cs: seq<Coin>)
    requires ValidCoinDraws(rooms, draws)
    ensures forall k :: 0 <= k < |cs| ==> InMiddleRoom(rooms, cs[k].rect.Center())
    ensures |rooms| <= 2 ==> cs == []
    ensures |rooms| > 2 ==> |rooms| - 2 <= |cs| <= 3 * (|rooms| - 2)
    // among disjoint rooms: the drawn one to three coins in each middle room,
    // none in the first or the last
    ensures PairwiseDisjoint(rooms) ==>
              forall j :: 0 <= j < |rooms| ==>
                && CoinsIn(cs, rooms[j]) == (if 0 < j < |rooms| - 1 then |draws[j]| else 0)
                && (0 < j < |rooms| - 1 ==> 1 <= CoinsIn(cs, rooms[j]) <= 3)
  {
    if |rooms| <= 2 then []
    else
      var cs := CoinsFrom(rooms, draws, 1);
      assert |cs| <= 3 * (|rooms| - 2) by { CoinsFromLastIsEmpty(rooms, draws, 1); }
      cs
  }

  lemma {:induction false} CoinsFromLastIsEmpty(rooms: seq<Room>, draws: seq<seq<(int, int)>>, i: nat)
    requires ValidCoinDraws(rooms, draws) && 0 < i <= |rooms| - 1
    ensures |CoinsFrom(rooms, draws, i)| <= 3 * (|rooms| - 1 - i)
    decreases |rooms| - i
  {
    if i < |rooms| - 1 {
      CoinsFromLastIsEmpty(rooms, draws, i + 1);
    }
  }
}

=== FILE: walls.dfy ===
/** The collision world of a level: one 32x32 collider per wall tile, placed
    at (32x, 32y + 40), built once from the generated grid. */
module Walls {
  import opened Geometry
  import opened Dungeon

  /** The tile whose square r is (meaningful when r is a tile square). */
  function TileOf(r: Rect): (int, int) {
    PixelTile(Point(r.x, r.y))
  }

  lemma TileOfTileRect(i: int, j: int)
    ensures TileOf(TileRect(i, j)) == (i, j)
  {
    assert (i * TILE_SIZE) / TILE_SIZE == i;
    assert (j * TILE_SIZE) / TILE_SIZE == j;
  }

  /** r is the collider of a wall tile of g. */
  ghost predicate IsWallCollider(g: Grid, r: Rect)
    requires WellFormed(g)
  {
    var (i, j) := TileOf(r);
    InMap(i, j) && g[i][j] == Wall && r == TileRect(i, j)
  }

  /** The wall tiles of column x from row y down, in the order the source's
      inner loop visits them. */
  function ColumnColliders(g: Grid, x: int, y: int): (ws: seq<Rect>)
    requires WellFormed(g) && 0 <= x < MAP_WIDTH && 0 <= y
    ensures forall k :: 0 <= k < |ws| ==> IsWallCollider(g, ws[k]) && TileOf(ws[k]).0 == x
    ensures forall j :: y <= j < MAP_HEIGHT && g[x][j] == Wall ==> TileRect(x, j) in ws
    decreases MAP_HEIGHT - y
  {
    if y >= MAP_HEIGHT then []
    else
      var rest := ColumnColliders(g, x, y + 1);
      TileOfTileRect(x, y);
      if g[x][y] == Wall then [TileRect(x, y)] + rest else rest
  }

  function CollidersFrom(g: Grid, x: int): (ws: seq<Rect>)
    requires WellFormed(g) && 0 <= x
    ensures forall k :: 0 <= k < |ws| ==> IsWallCollider(g, ws[k])
    ensures forall i, j :: x <= i && InMap(i, j) && g[i][j] == Wall ==> TileRect(i, j) in ws
    decreases MAP_WIDTH - x
  {
    if x >= MAP_WIDTH then []
    else
      var col := ColumnColliders(g, x, 0);
      var rest := CollidersFrom(g, x + 1);
      assert forall k :: 0 <= k < |col| ==> (col + rest)[k] == col[k];
      assert forall k :: 0 <= k < |rest| ==> (col + rest)[|col| + k] == rest[k];
      col + rest
  }

  /** The wall-building loop of a level (source lines 632-640): exactly the
      wall tiles' squares. */
  function WallColliders(g: Grid): (ws: seq<Rect>)
    requires WellFormed(g)
    ensures forall k :: 0 <= k < |ws| ==> IsWallCollider(g, ws[k])
    ensures forall i, j :: InMap(i, j) && g[i][j] == Wall ==> TileRect(i, j) in ws
  {
    CollidersFrom(g, 0)
  }

  /** A box touches a wall tile of the grid. */
  ghost predicate TouchesWallTile(g: Grid, b: Rect)
    requires WellFormed(g)
  {
    exists i, j :: InMap(i, j) && g[i][j] == Wall && Overlaps(b, TileRect(i, j))
  }

  /** Colliding with the collider group is the same as touching a wall tile of
      the grid, so the grid alone decides every movement test. */
  lemma CollidersMatchGrid(g: Grid, b: Rect)
    requires WellFormed(g)
    ensures HitsAny(b, WallColliders(g)) <==> TouchesWallTile(g, b)
  {
    var ws := WallColliders(g);
    if HitsAny(b, ws) {
      var k :| 0 <= k < |ws| && Overlaps(b, ws[k]);
      assert IsWallCollider(g, ws[k]);
      var (i, j) := TileOf(ws[k]);
      assert InMap(i, j) && g[i][j] == Wall && Overlaps(b, TileRect(i, j));
    }
    if TouchesWallTile(g, b) {
      var i, j :| InMap(i, j) && g[i][j] == Wall && Overlaps(b, TileRect(i, j));
      assert TileRect(i, j) in ws;
      var k :| 0 <= k < |ws| && ws[k] == TileRect(i, j);
      assert Overlaps(b, ws[k]);
    }
  }

  /** A box of even side at most 32 centred on a floor tile's centre touches no
      wall: the player, every enemy and every coin spawn clear of the walls. */
  lemma CentredOnFloorIsClear(g: Grid, x: int, y: int, side: nat)
    requires WellFormed(g) && InMap(x, y) && g[x][y] == Floor
    requires 0 < side <= TILE_SIZE && side % 2 == 0
    ensures !HitsAny(RectAround(TileCentre(x, y), side, side), WallColliders(g))
  {
    var b := RectAround(TileCentre(x, y), side, side);
    CollidersMatchGrid(g, b);
    forall i, j | InMap(i, j) && g[i][j] == Wall
      ensures !Overlaps(b, TileRect(i, j))
    {
      CentredBoxMeetsOnlyItsTile(x, y, side, i, j);
    }
  }
}
